=== FILE: README.md ===
# gizmo-backend core, modelled in Dafny

This project models the decision logic of the gizmo-backend content services:
images, albums, text pastes, bookmarks, local accounts and Microsoft sign-in,
together with the controllers that carry real rules (public share links, the
upload key builder and the paste error-to-status mapping).

Every table is a map from id to an immutable record, and every operation is a
pure function from the old table to a `Step(newTable, result)`. Thrown errors
are `Err` values that carry the exact message the source throws. Inputs that
the source takes from the environment are parameters:

- bcrypt is an injective digest: a password matches the hash made from it and
  no other.
- `nanoid` and `uuid` are a caller-supplied token stream or value.
- The clock is an integer `now`.
- The signed-in viewer is an `Option<UserId>`; the empty id is `None`, as
  JavaScript treats `""` as falsy.
- Four failures are parameters: the S3 upload (`failure`), the bookmark
  insert (`createFails`), the provider link insert (`linkFails`) and the
  Microsoft code exchange (`exchange`, which may yield no identity). Other
  database errors are not modelled (see "Left out").

Modules follow the source files:

- `Wrappers`, `Common`, `Text` and `Slugs` are shared helpers: trimming,
  decimal printing, substring tests and the slug searches.
- `ImageModel`, `AlbumModel`, `PasteModel`, `UserModel` and `BookmarkModel`
  are the records and their enum validators.
- `ImageService`, `AlbumService`, `PasteService` and `UserService` are the
  services.
- `MicrosoftAuth` is the sign-in callback.
- `ShareController`, `ImageController`, `TextPasteController` and
  `BookmarkController` are the handlers.

Some behaviour follows the code as written even where it looks unintended:

- The upload share link uses the slug as sent, while the stored key uses the
  cleaned slug (`ImageController.ShareLinkIgnoresCleaning`).
- An expired image reached through a share link is answered with 500, not
  404 or 410 (`ShareController.ExpiredIs500`).
- A shared album lists all its images, private and password-protected ones
  included (`ShareController.SharedAlbumShowsHiddenImages`).
- The preferred-slug search for images returns `base-501` without checking
  it; the unique index then refuses the save.
- Ownerless images can be written by anyone, and ownerless albums by no one.
- An image whose expiry equals the current time is still served, but a paste
  whose expiry equals the current time is not found.
- A linked Microsoft sign-in ignores the account status, so a soft-deleted
  user still gets a session.
- Registration compares usernames exactly, while profile updates compare
  them ignoring case.

## Model

| member | source | states |
|---|---|---|
| `Text.Trim` | service/albumService.js:8 | The result is the input with white space removed from both ends only, and it neither starts nor ends with white space. |
| `Text.BlankIffAllSpace` | service/albumService.js:8 | A string trims to empty (is falsy after `trim`) exactly when every character is white space. |
| `Text.TrimIdempotent` | service/imageService.js:81 | Trimming an already trimmed slug changes nothing. |
| `Text.NatToStringInjective` | service/imageService.js:97 | Distinct counters print as distinct decimal strings. |
| `Slugs.CandidateInjective` | service/imageService.js:97 | `base-j` and `base-k` are different slugs for different counters, so each attempt of the loop tests a new slug. |
| `Slugs.CappedSuffixSearch` | service/imageService.js:93-100 | The result is the first of `base`, `base-1` … `base-500` that is free. If all are held, the result is `base-501` and it may itself be held; it is held exactly when every candidate `base` … `base-501` is. A free base is returned unchanged. |
| `Slugs.AlbumCandidateIsSuffixed` | service/albumService.js:17 | The trailing-dash strip never fires on `base-k`, so the album loop also tries exactly `base-k`. |
| `Slugs.TakenBelowIsBounded` | service/albumService.js:16-18 | Only as many numbered variants can be held as the table has rows, so the uncapped loop ends. |
| `Slugs.UncappedSuffixSearch` | service/albumService.js:14-18 | The chosen slug is held by no album and is the first free variant. The loop tries at most as many variants as there are albums. |
| `Slugs.FreshToken` | service/imageService.js:103-107 | The result is the first token of the stream that no row holds, and it has the token length. |
| `ImageModel.ParseExposure` | models/Image.js:20-25 | An accepted exposure name prints back as itself, and a refused name is the name of no exposure. |
| `ImageModel.ParseImageType` | models/Image.js:14-18 | An accepted type prints back as itself, and a refused name is the name of no type. |
| `ImageModel.EnumNamesRoundTrip` | models/Image.js:14-25 | Exactly the four exposure names and the seven type names are accepted, and each parses to the value it names. |
| `ImageModel.FindBySlug` | models/Image.js:6-11 | Under the unique index, the lookup finds the row holding the slug, or reports that no row holds it. |
| `ImageService.Sanitize` | service/imageService.js:279-297 | The projection shows the author only to a present viewer who is that author. |
| `ImageService.SanitizeIgnoresHash` | service/imageService.js:283-296 | Changing the stored hash cannot change the projection, so the hash never leaks through it. |
| `ImageService.GenerateUniqueSlug` | service/imageService.js:80-108 | A custom slug fails with `SLUG_TAKEN` exactly when its trimmed form is held, and is otherwise kept. A preferred slug gets the capped search. A blank slug gets a fresh 10-character token. A returned slug is already held exactly when it came from a preferred search in which all 502 candidates were held. |
| `ImageService.SuggestedSlugTakesFirstVariant` | service/imageService.js:93-100 | When `x` is held and `x-1` is not, a free result of the preferred-slug search is `x-1`. |
| `ImageService.CreateImage` | service/imageService.js:8-78 | Creation succeeds exactly when the fields are present, a custom slug is free, a private image has a caller, the exposure and type are valid names, and the capped search has not run out of variants. The refusals come in source order: missing information, `SLUG_TAKEN`, then "Private images require login". A new row has a slug no other row held, and carries the trimmed caption, the URL, size, type, exposure, expiry and album of the request. It has zero views and the caller as author. The hash is stored iff a password is given, and it matches that password. The index stays unique. |
| `ImageService.FreshSlugKeepsUnique` | models/Image.js:6-11 | Adding a row whose slug is free keeps slugs unique. |
| `ImageService.ExpiryIsStrict` | service/imageService.js:272-277 | An image whose expiry equals the current time has not expired yet. |
| `ImageService.CanAccessImage` | service/imageService.js:189-208 | Access passes exactly for the readers the exposure allows. Each refusal names its cause: a private image of another user, a missing hash, a missing password or a wrong password. |
| `ImageService.PasswordCheckIgnoresViewer` | service/imageService.js:190-206 | For a password-protected image, the outcome is the same for every viewer, the owner included. |
| `ImageService.ReadFound` | service/imageService.js:110-130 | An expired image is deleted and reported. Otherwise a refused reader gets the access error with the table unchanged. A read succeeds iff the image is live and readable, and only then does the view count rise by one. |
| `ImageService.GetImageById` | service/imageService.js:110-117 | A missing id is "Image does not exist"; otherwise the read path runs on the row. |
| `ImageService.GetImageBySlug` | service/imageService.js:119-126 | An unknown slug is "Image does not exist". A known slug runs the same read path as by id, with no viewer: expiry deletes the row, the access check runs, and the view count rises on success. A success shows the image with that slug, never a private one and never its author. |
| `ImageService.UpdateImage` | service/imageService.js:132-167 | An update succeeds exactly when the image exists, the caller may modify it (its author, or anyone for an ownerless image), and the resulting exposure name is valid. Only the whitelisted fields change. Caption, album (`|| null`) and expiry (`0` as null) take the sent values, and a sent exposure is kept when no password key is sent. A non-empty password forces `password_protected` with its hash. An empty password clears the hash and forces `public`. |
| `ImageService.SetPassword` | service/imageService.js:169-178 | Setting a password succeeds exactly when the image exists and the caller may modify it. The row then becomes password-protected with the new hash, and nothing else changes. |
| `ImageService.SetPasswordRotates` | service/imageService.js:175-176 | After a password change, the new password opens the image and any other password is "Incorrect password". |
| `ImageService.DeleteImage` | service/imageService.js:180-187 | Deleting a missing image succeeds silently. A non-owner is refused. Every other row is untouched. |
| `ImageService.MoveImageToAlbum` | service/imageService.js:261-270 | A move succeeds exactly when the image exists and the caller may modify it. Only `albumId` changes, to the given id or null; the album itself is not checked. The reply is the sanitised view of the moved image for the caller, so its author shows only to that author. |
| `ImageService.OwnerlessImageIsWritableByAnyone` | service/imageService.js:132-187 | An image with no author accepts update, delete and move from any caller, anonymous included. |
| `ImageService.ListImagesInAlbum` | service/imageService.js:220-236 | The listing holds only images of the album. It never holds a password-protected image, and holds a private image only for its owner. Every image that passes the filter is listed. |
| `AlbumModel.ParseExposure` | models/Album.js:27-31 | An accepted name prints back as the album exposure it names, and a refused name is the name of no album exposure. |
| `AlbumModel.AlbumExposureNames` | models/Album.js:27-31 | Every album exposure round-trips, and `password_protected` is not an album exposure. |
| `AlbumModel.FindBySlug` | models/Album.js:9-14 | Under the unique index, the lookup finds the album holding the slug, or reports that none does. |
| `AlbumModel.AddFreshKeepsUnique` | models/Album.js:9-14 | Adding an album with a free slug keeps slugs unique. |
| `AlbumModel.ReplaceKeepsUnique` | models/Album.js:9-14 | Rewriting an album with its own slug, or with a slug no other album holds, keeps slugs unique. |
| `AlbumService.Sanitize` | service/albumService.js:153-164 | The projection keeps id, slug, exposure and the author. |
| `AlbumService.StartSlug` | service/albumService.js:12 | The search starts from the trimmed requested slug, or from the random token when the request is blank. |
| `AlbumService.CreateAlbum` | service/albumService.js:5-30 | A blank name is refused, and only that case is refused with that error. A new album holds a slug no album held, found as the first free variant of the start slug. Name and description are trimmed. Exposure is private unless given. The index stays unique. |
| `AlbumService.CanAccessAlbum` | service/albumService.js:103-111 | Public and unlisted albums pass. A private album passes only for a present viewer equal to a recorded author. |
| `AlbumService.OwnerlessPrivateAlbumIsHidden` | service/albumService.js:104-110 | A private album with no author is shown to nobody. |
| `AlbumService.CheckedSlug` | service/albumService.js:75-84 | A non-empty requested slug that differs from the current one is trimmed. It is refused iff another album holds it. |
| `AlbumService.UpdateAlbum` | service/albumService.js:50-90 | An update succeeds exactly when the caller is the author, the slug step passes, the exposure name is valid, and the row keeps a name and a slug. Only name, description, exposure and slug change. A new name without a slug brings the fresh token. A changed slug is trimmed and must be free among the other albums. The index stays unique. |
| `AlbumService.UpdatedRowFollowsRequest` | service/albumService.js:59-86 | Once the slug step and the exposure check pass, the stored row carries exactly the requested changes. |
| `AlbumService.DeleteAlbum` | service/albumService.js:92-101 | Deleting a missing album is an error. Deletion succeeds exactly for the author. |
| `AlbumService.OwnerlessAlbumIsImmutable` | service/albumService.js:50-101 | An album with no author can be neither updated nor deleted, whoever asks. |
| `AlbumService.SearchFilter` | service/albumService.js:131-134 | The result holds only public or unlisted albums whose name or description matches, and every such album. |
| `AlbumService.SearchAlbums` | service/albumService.js:125-151 | A blank or absent query finds nothing. Otherwise an album is found exactly when it is public or unlisted and its name or description matches: every matching row is found, and everything found is the sanitised view of a matching row. The total is the number found, and no private album is ever found. |
| `PasteModel.ParseExposure` | models/TextPaste.js:18-22 | An accepted name prints back as the paste exposure it names, and a refused name is the name of no paste exposure. |
| `PasteService.CreatePaste` | service/pasteService.js:9-34 | A held explicit slug is refused with "Slug already in use.". Otherwise the paste is stored under its slug, or under the uuid when none is given. Exposure defaults to public. A hash is stored iff a password is given. |
| `PasteService.CheckAccess` | service/pasteService.js:45-55 | A private paste passes only for its owner. A protected paste passes only for the matching password, with an absent password compared as `""`. Public and unlisted pastes always pass. |
| `PasteService.AbsentPasswordIsEmpty` | service/pasteService.js:51-54 | For a protected paste, no password and the empty password get the same answer, whoever asks. |
| `PasteService.GetPasteById` | service/pasteService.js:57-71 | A missing or expired paste is "NotFound". A read succeeds iff the paste is live and readable, and then the views rise by one in the stored and the returned record. |
| `PasteService.ExpiringNowIsNotFound` | service/pasteService.js:58-64 | A paste whose expiry equals the current time is not found. |
| `PasteService.UpdatePaste` | service/pasteService.js:73-87 | An update succeeds exactly when the paste exists, the caller is its author, and the paste keeps a title and content. Only title, content and expiry change, to the sent values. |
| `PasteService.Escape` | service/pasteService.js:104-106 | The escaped text holds no `<` or `>`. Any other character outside the entity letters `&`, `l`, `t`, `g` and `;` occurs in it exactly when it occurs in the input. |
| `PasteService.EscapeIsPerCharacter` | service/pasteService.js:104-106 | The two global replacements equal escaping each character on its own. |
| `PasteService.UnescapeInvertsEscape` | service/pasteService.js:104-106 | Decoding the two entities recovers any content free of `&`. |
| `PasteService.EscapeConflatesEntities` | service/pasteService.js:104-106 | Because `&` is not escaped, the text `&lt;` renders the same as `<`. |
| `PasteService.PngPage` | service/pasteService.js:103-107 | The content placed inside the `pre` element contains no `<` or `>`. |
| `PasteService.ExportPaste` | service/pasteService.js:88-134 | Raw and markdown return the content unchanged as `slug.md`. PNG renders the escaped page. PDF carries the text. Exactly an unknown format of an existing paste is "InvalidFormat". |
| `PasteService.ExportBypassesAccess` | service/pasteService.js:88-98 | A private paste refused to an anonymous reader is still exported whole. |
| `TextPasteController.CreateReply` | controllers/textPasteController.js:3-11 | Success is 201. Exactly the slug-collision message is 409. Every other error is 400 with its message. |
| `TextPasteController.ReadErrorReply` | controllers/textPasteController.js:24-38 | "NotFound" is 404. A message starting with `AccessDenied` or `WrongPassword` is 403. Everything else is 500 with the message itself. |
| `TextPasteController.UpdateErrorReply` | controllers/textPasteController.js:40-49 | Only the exact messages "NotFound" (404) and "AccessDenied" (403) are recognised, and everything else is 500. |
| `TextPasteController.ExportErrorReply` | controllers/textPasteController.js:65-68 | Only "NotFound" is 404, and every other message is 500. |
| `TextPasteController.ContentType` | controllers/textPasteController.js:57-62 | Each export kind has its own content type, and the raw kind is `text/markdown`. |
| `TextPasteController.CreateErrorsClassified` | controllers/textPasteController.js:5-9 | Of the service's create errors, only the slug collision is 409; the validation failure is 400. |
| `TextPasteController.ReadErrorsClassified` | controllers/textPasteController.js:32-37 | Every read failure gets its status: 404 not found, 403 access or password, and 500 for a protected paste without a hash. |
| `TextPasteController.UpdateErrorsClassified` | controllers/textPasteController.js:44-48 | Update failures are 404 for a missing paste, 403 for a non-owner, and 500 for anything else, such as a failed validation. |
| `TextPasteController.InvalidFormatIsServerError` | controllers/textPasteController.js:65-68 | An unknown export format reaches the client as 500, not 400. |
| `BookmarkModel.ParseTargetType` | models/Bookmark.js:5 | Exactly `image` and `album` are accepted. |
| `BookmarkModel.CountAfterAdd` | controllers/bookmarkController.js:25-28 | Creating a new bookmark raises its target's recount by one. |
| `BookmarkModel.CountAfterRemove` | controllers/bookmarkController.js:31-34 | Deleting a bookmark lowers its target's recount by one. |
| `BookmarkModel.OtherCountsUnchanged` | controllers/bookmarkController.js:27-33 | Other targets' counts do not move. |
| `BookmarkController.ToggleBookmark` | controllers/bookmarkController.js:5-42 | The guards come in order: 401, 400 for the type, 400 for the id, then 404 for a target that does not exist. A valid request for an existing target always toggles. The row is created when absent and deleted when present. A failed create of a new row is 500 and writes nothing. The count is the recount after the change. Other users' rows never change. |
| `BookmarkController.ToggleMovesCountByOne` | controllers/bookmarkController.js:25-34 | A toggle that goes through moves the count by exactly one, up when created and down when removed. |
| `BookmarkController.ToggleTwiceRestores` | controllers/bookmarkController.js:25-34 | Toggling twice restores the set of bookmarks and the count. If the first toggle created the row, the table is restored exactly. |
| `BookmarkController.CheckBookmark` | controllers/bookmarkController.js:61-73 | Missing parameters are reported before the viewer is checked. An anonymous viewer gets `false`. Otherwise the answer is whether the row exists. |
| `BookmarkController.CheckAgreesWithToggle` | controllers/bookmarkController.js:61-68 | Right after a toggle, the check reports what the toggle reported. |
| `BookmarkController.TypeFilter` | controllers/bookmarkController.js:49-51 | Only `image` and `album` restrict the list. |
| `BookmarkController.GetBookmarks` | controllers/bookmarkController.js:44-59 | The result holds the caller's own rows, exactly those of the requested type when one is recognised. |
| `BookmarkController.UnknownTypeIsIgnored` | controllers/bookmarkController.js:51 | An unknown type is ignored, and a known type only narrows the list. |
| `Common.HashAcceptsOnlyItsPassword` | service/userService.js:31-32 | A stored hash accepts exactly the password it was made from. |
| `Common.DateOrNull` | service/imageService.js:71 | A date is stored iff one is given and it is not 0, which is falsy. |
| `UserModel.ParseAuthMethod` | models/User.js:40-45 | An accepted name prints back as the provider it names, and a refused name is the name of no provider. |
| `UserModel.NewUser` | models/User.js:27-39 | A new user keeps the given id, name, hash and provider. It is active and has used no storage. The quota is 1 GiB, and there is no avatar and no full name. |
| `UserModel.FindByUsername` | service/userService.js:9 | Under unique usernames, the lookup finds the user with exactly that name, or reports that none exists. |
| `UserModel.AddNewNameKeepsUnique` | service/userService.js:9-18 | Adding a user whose name nobody holds keeps usernames unique. |
| `UserService.Sanitize` | service/userService.js:105-109 | The projection keeps the id, name, status and sign-in method. |
| `UserService.SanitizeDropsHash` | service/userService.js:105-109 | The projection does not depend on the hash, so the hash cannot leak. |
| `UserService.Register` | service/userService.js:8-20 | A held username is refused. Registration succeeds iff the name is free and non-empty and any provider is known. A hash is stored iff there is no provider and a password is given. Usernames stay unique. |
| `UserService.Login` | service/userService.js:23-35 | The checks come in order: a missing or inactive account, a provider account, then the hash. Login succeeds exactly for an active password account whose hash the password matches. |
| `UserService.RegisterThenLogin` | service/userService.js:12-32 | A password account signs in with its password and is refused with any other one. |
| `UserService.UpdateProfile` | service/userService.js:38-71 | An update succeeds exactly when the new name clashes with no other user (ASCII case ignored), the user exists, and the resulting name is non-empty. The clash check comes before the missing-user check. Only username, hash and avatar change. A non-empty password becomes a new hash. Under this reading of the name match, usernames stay unique. |
| `UserService.RegisterIgnoresCaseVariants` | service/userService.js:9-10 | Registration compares names exactly: `alice` is accepted whenever no user is named exactly `alice`, even if `Alice` exists. |
| `UserService.SoftDelete` | service/userService.js:74-82 | A missing user is an error. Otherwise the record stays, with status `deleted`. |
| `UserService.SoftDeleteBlocksLogin` | service/userService.js:25-26 | After a soft delete, login fails with any password. |
| `MicrosoftAuth.RedirectPath` | auth/microsoftAuth.js:57-137 | A missing code and a failed sign-in go to their own login error pages. |
| `MicrosoftAuth.Session` | auth/microsoftAuth.js:123-127 | The claims carry the resolved user id and the provider e-mail, and last seven days. |
| `MicrosoftAuth.HandleCallback` | auth/microsoftAuth.js:53-138 | No code changes nothing. An existing link decides the user. Otherwise a user with the e-mail as username is reused, or a provider-only user is created, and one link is added. A failed link write keeps the created user. A session always names an existing user. |
| `MicrosoftAuth.RepeatSignInIsIdempotent` | auth/microsoftAuth.js:87-119 | Signing in again with the same identity changes nothing and yields the same session. |
| `MicrosoftAuth.LinkedSignInIgnoresStatus` | auth/microsoftAuth.js:116-119 | A linked sign-in succeeds even for a soft-deleted user. |
| `MicrosoftAuth.RetryAfterFailedLinkReusesUser` | auth/microsoftAuth.js:97-115 | After a failed link write, the retry links the user created the first time instead of creating another. |
| `ShareController.Project` | controllers/shareController.js:45-52 | A shared image keeps the image's id, slug, URL and exposure, and holds nothing about its author or hash. |
| `ShareController.RouteSlug` | controllers/shareController.js:10 | The route slug is empty when the parameter is absent. Otherwise it is the parameter with white space removed from its ends only, and it neither starts nor ends with white space. |
| `ShareController.LooseImages` | controllers/shareController.js:15 | The selection holds only images with no album that are public or unlisted, and every such image. |
| `ShareController.Populate` | controllers/shareController.js:32 | Each listed id whose image exists is replaced by that image, one for one and in the album's order: the result is the images of the listed ids at increasing positions, and every position whose image exists is among them. Ids whose image is gone are dropped, and nothing else appears. |
| `ShareController.ShareAlbum` | controllers/shareController.js:8-59 | The image rows are given as a listing of the whole images table. A blank slug is exactly the 400 case. `images` is the global collection: the first 200 loose images. An unknown slug is exactly the 404 case. A 403 says "Album is private". A found album is shared exactly when `canAccessAlbum` lets the viewer see it: public and unlisted albums to anyone, a private one to its author. A shared album carries its existing images. |
| `ShareController.ShareAlbumAgreesWithService` | controllers/shareController.js:35-42 | The share link refuses an album exactly when `canAccessAlbum` would, and shares it exactly when `canAccessAlbum` passes. |
| `ShareController.ReservedSlugShadowsAlbum` | controllers/shareController.js:13-29 | An album whose slug is `images` can never be shared through its slug. |
| `ShareController.SharedAlbumShowsHiddenImages` | controllers/shareController.js:44-52 | Every existing image of a public album is listed, whatever its own exposure. |
| `ShareController.GlobalCollectionIsLooseAndBounded` | controllers/shareController.js:13-29 | The global collection holds at most 200 images. Each is a loose image of the table, so none is private or password-protected. When there are at most 200 loose images, every one is listed. |
| `ShareController.ErrorReply` | controllers/shareController.js:84-90 | A message mentioning `password` in any case is 401. Otherwise one mentioning `quyền` or `permission` is 403. Everything else is 500 with a fixed message. |
| `ShareController.FindImage` | controllers/shareController.js:69-70 | An image is found iff some row holds the slug. |
| `ShareController.ShareImage` | controllers/shareController.js:61-92 | A blank slug is 400 and an unknown one 404. Otherwise the service read path runs with the viewer and `password \|\| null`, and its error is classified by message. |
| `ShareController.ShareImageShowsReadable` | controllers/shareController.js:72-81 | The link shows an image exactly when it is live and the viewer may read it. |
| `ShareController.NoPasswordSetIs401` | controllers/shareController.js:84-86 | A protected image with no hash is reported as 401. |
| `ShareController.PasswordRequiredIs401` | controllers/shareController.js:84-86 | A missing password is reported as 401. |
| `ShareController.IncorrectPasswordIs401` | controllers/shareController.js:84-86 | A wrong password is reported as 401. |
| `ShareController.ViewDeniedLacksPassword` | controllers/shareController.js:84-86 | The private-image refusal does not mention a password. |
| `ShareController.ViewDeniedMentionsPermission` | controllers/shareController.js:87-89 | The private-image refusal mentions permission. |
| `ShareController.ViewDeniedIs403` | controllers/shareController.js:87-89 | A private image of another user is reported as 403. |
| `ShareController.ExpiredIs500` | controllers/shareController.js:90 | An expired image is reported as a 500 server error. |
| `ShareController.ShareImageFailuresClassified` | controllers/shareController.js:72-90 | For a found image: expiry is 500 and deletes the row, a private image is 403, the password failures are 401, and only expiry changes the table. |
| `ImageController.Clean` | controllers/imageController.js:26-28 | The result has the input's length, keeps every allowed character in place, puts `-` in place of every other character, and holds only `[a-zA-Z0-9-]`. |
| `ImageController.CleanFixesExactlyClean` | controllers/imageController.js:26-28 | The sanitiser leaves a string unchanged iff it is already clean. |
| `ImageController.CleanIdempotent` | controllers/imageController.js:26-28 | Cleaning twice is cleaning once. |
| `ImageController.CleanConflatesNames` | controllers/imageController.js:27-28 | Different slugs (`a b`, `a_b`) clean to the same file name. |
| `ImageController.CleanHasNoSeparators` | controllers/imageController.js:29 | A cleaned name holds neither `/` nor `.`. |
| `ImageController.NameOr` | controllers/imageController.js:27 | The name is the trimmed slug when that is non-empty, and otherwise the fallback. |
| `ImageController.UploadKey` | controllers/imageController.js:23-34 | With an album id the key is `albums/<clean id>/<name>.png`, and without one it is `i/<name>.png`. |
| `ImageController.LastSegment` | controllers/imageController.js:47 | The result is the suffix after the last `/`, and it holds no `/`. |
| `ImageController.RemoveFirst` | controllers/imageController.js:47 | A string without the pattern is unchanged. Otherwise exactly the first occurrence is removed: the result is the text before the earliest position where the pattern occurs, followed by the text after that occurrence. |
| `ImageController.RemoveSuffixPng` | controllers/imageController.js:47 | Removing `.png` from `name.png` gives `name` when the name has no dot. |
| `ImageController.LastSegmentAfterSlash` | controllers/imageController.js:47 | The last segment of `prefix/name` is `name` when the name has no `/`. |
| `ImageController.BucketText` | controllers/imageController.js:44 | A set bucket name is printed as itself, and an unset one as `undefined`. |
| `ImageController.ObjectUrl` | controllers/imageController.js:44 | The URL names the bucket, the region (`ap-southeast-1` when unset) and the key. |
| `ImageController.UploadImage` | controllers/imageController.js:12-66 | No file is 400 and writes nothing. A failed upload is 500 and writes nothing. Otherwise the file is stored under its key, overwriting any object there. The reply carries URL, link, key and album title (`My Album` by default). |
| `ImageController.FileNamesAreClean` | controllers/imageController.js:25-34 | Every file name is non-empty and clean. |
| `ImageController.ShareLinkNamesStoredFile` | controllers/imageController.js:45-47 | With no album and no slug, the share link names the stored drawing's file exactly. |
| `ImageController.CleanSlugLinksToItsKey` | controllers/imageController.js:45-47 | A clean slug is stored as `i/<slug>.png` and linked as `/i/<slug>`. |
| `ImageController.TrimmedSlugNamesFile` | controllers/imageController.js:31-33 | An unpadded slug names the drawing, cleaned. |
| `ImageController.ShareLinkIgnoresCleaning` | controllers/imageController.js:31-47 | For any non-blank slug that trimming and cleaning change, the file is stored under the cleaned name, but the link names the raw slug and so not the stored file. |
| `ImageController.SpacedSlugExample` | controllers/imageController.js:31-47 | The slug `my pic` is stored as `i/my-pic.png` but linked as `/i/my pic`. |
| `ImageController.KeyDependsOnSlugOnly` | controllers/imageController.js:23-34 | Once a slug is given, the key depends on neither the uuid nor the clock, so a repeat upload overwrites. |

## Left out

- HTTP mechanics: routes, middleware, the JSON bodies beyond status and
  message, and the token claim the middleware reads. The viewer id is a
  parameter.
- JWT signing, the MSAL code exchange and `redirectToMicrosoft`: the exchange
  is a parameter that yields an identity or fails.
- The S3 transport, Puppeteer and PDFKit rendering: only the object key, the
  URL and the escaped page text are modelled.
- OCR, summarisation and markdown rendering, and the favourite handlers. The
  favourite handlers call service methods that do not exist.
- Sorting and pagination (`sort`, `skip`, `limit`): the listings take the
  rows in query order. The limit of 200 in the global collection is modelled.
- `listUserImages`, `searchImages`, `listUserAlbums`, `getAlbumById`,
  `getAlbumBySlug`, `getPublicPastes`, `hardDelete`, `findById` and
  `findByUsername` of the user service: these are query glue around rules that
  are modelled elsewhere.
- UserService.UpdateProfile: the name clash is ASCII case-insensitive equality, not the source's `^name$` regular expression. Names holding regex metacharacters match differently in the source: `a+b` does not match an existing `a+b`, so the source can store a duplicate, and `a.c` matches `abc`. The uniqueness promise holds only for the modelled reading, that is, for names without metacharacters.
- Regular expressions: the album search takes the case-insensitive matcher as
  a function parameter. The profile-name clash compares ASCII-lower-cased
  names, so regex metacharacters in a name are not modelled.
- Unicode case folding: `toLowerCase` is modelled for ASCII letters only.
- bcrypt salt and cost factor. The "Password authentication error" branch of
  `canAccessImage`, which needs bcrypt itself to throw, is not modelled.
- The `fullname` required flag of the user schema: no code path sets it, so
  the model does not apply that validation.
- Database errors other than the four failure parameters: a query, save,
  populate or view increment that throws (for example `Album.findOne` in
  `shareAlbum`, `incrementViews` in `shareImage`, `User.create` in the
  Microsoft callback) and the catch-all 500 "Server error" it leads to. The
  model treats every database call as succeeding.
- Concurrency: every check-then-insert is modelled as sequential, so races
  between slug checks and inserts are not expressible.
- Logging, and the stack field of the upload error response.
- `BookmarkController.GetBookmarks`: the 401 for an anonymous caller is not
  modelled; the function takes a present viewer.

=== FILE: album_model.dfy ===
/** The album record (models/Album.js): a three-valued exposure and the table of albums. */
module AlbumModel {
  import opened Wrappers
  import opened Common

  /** Albums have no password mode. */
  datatype Exposure = Public | Unlisted | Private

  function ExposureName(e: Exposure): string {
    match e
    case Public => "public"
    case Unlisted => "unlisted"
    case Private => "private"
  }

  /** The schema's enum validator. */
  function ParseExposure(s: string): (r: Option<Exposure>)
    ensures r.Some? ==> ExposureName(r.value) == s
    ensures r.None? ==> forall e :: ExposureName(e) != s
  {
    if s == "public" then Some(Public)
    else if s == "unlisted" then Some(Unlisted)
    else if s == "private" then Some(Private)
    else None
  }

  /** `password_protected` is not an album exposure; every album name round-trips. */
  lemma AlbumExposureNames(e: Exposure)
    ensures ParseExposure(ExposureName(e)) == Some(e)
    ensures ParseExposure("password_protected") == None
  {
  }

  /** Albums are private unless the request says otherwise. */
  const DefaultExposure: Exposure := Private

  /** One stored album; `description` defaults to "" and `authorId` to null. */
  datatype Album = Album(
    id: string,
    name: string,
    slug: string,
    description: string,
    authorId: Option<UserId>,
    createdAt: int,
    exposure: Exposure,
    images: seq<string>)

  /** `name` and `slug` are required: the validator refuses empty strings. */
  predicate RequiredPresent(a: Album) {
    a.name != "" && a.slug != ""
  }

  /** The albums table, by id. */
  type Table = map<string, Album>

  predicate WellKeyed(t: Table) {
    forall id :: id in t ==> t[id].id == id
  }

  /** The unique index on `slug`. */
  predicate UniqueSlugs(t: Table) {
    forall a, b :: a in t && b in t && t[a].slug == t[b].slug ==> a == b
  }

  function SlugsOf(t: Table): set<string> {
    set id | id in t :: t[id].slug
  }

  /** `Album.findOne({ slug })` under the unique index. */
  function FindBySlug(t: Table, slug: string): (r: Option<string>)
    requires UniqueSlugs(t)
    ensures r.Some? ==> r.value in t && t[r.value].slug == slug
    ensures r.None? ==> slug !in SlugsOf(t)
  {
    if slug in SlugsOf(t) then
      var id :| id in t && t[id].slug == slug;
      Some(id)
    else None
  }

  /** Adding a row whose slug no row holds keeps the unique index satisfied. */
  lemma AddFreshKeepsUnique(t: Table, id: string, a: Album)
    requires UniqueSlugs(t) && a.slug !in SlugsOf(t)
    ensures UniqueSlugs(t[id := a])
  {
    assert forall x :: x in t ==> t[x].slug in SlugsOf(t);
  }

  /** Rewriting a row keeps the index satisfied when its slug is its own or held by no other row. */
  lemma ReplaceKeepsUnique(t: Table, id: string, a: Album)
    requires UniqueSlugs(t) && id in t
    requires a.slug == t[id].slug || a.slug !in SlugsOf(t - {id})
    ensures UniqueSlugs(t[id := a])
  {
    var rest := t - {id};
    assert forall x :: x in rest ==> rest[x].slug in SlugsOf(rest);
    var u := t[id := a];
    assert forall x :: x in rest ==> u[x] == rest[x];
  }

  /** Storing a row under its own id keeps every row under its own id. */
  lemma StoreKeepsKeys(t: Table, id: string, a: Album)
    requires WellKeyed(t) && a.id == id
    ensures WellKeyed(t[id := a])
  {
  }
}

=== FILE: album_service.dfy ===
/**
 * The album service (service/albumService.js): creation with numbered slug
 * variants, owner-only updates and deletes, the exposure policy and the
 * search filter.
 */
module AlbumService {
  import opened Wrappers
  import opened Text
  import opened Common
  import opened Slugs
  import opened AlbumModel

  /** The errors the service throws, each with its exact message. */
  datatype AlbumError =
    | NameRequired
    | ValidationFailed
    | NotExist
    | NoEditPermission
    | NoDeletePermission
    | SlugInUse
    | ViewDenied
  {
    function Message(): string {
      match this
      case NameRequired => "Album name is required"
      // raised by the schema validator, not by the service
      case ValidationFailed => "Album validation failed"
      case NotExist => "Album does not exist"
      case NoEditPermission => "You do not have permission to edit this album"
      case NoDeletePermission => "You do not have permission to delete this album"
      case SlugInUse => "Slug is already in use"
      case ViewDenied => "You do not have permission to view this album"
    }
  }

  /** `_sanitize(album)`: unlike an image, an album shows its author to every caller. */
  datatype AlbumView = AlbumView(
    id: string,
    name: string,
    slug: string,
    description: string,
    exposure: Exposure,
    createdAt: int,
    author: Option<UserId>)

  function Sanitize(a: Album): (v: AlbumView)
    ensures v.id == a.id && v.slug == a.slug && v.exposure == a.exposure
    ensures v.author == a.authorId
  {
    AlbumView(a.id, a.name, a.slug, a.description, a.exposure, a.createdAt, a.authorId)
  }

  /** A `nanoid(12)` token: twelve characters from an alphabet without white space. */
  predicate IsAlbumToken(token: string) {
    |token| == AlbumTokenLength && forall i :: 0 <= i < |token| ==> !IsSpace(token[i])
  }

  // ---------------------------------------------------------------- create

  /** The body of a create request; `None` is a key the request did not send. */
  datatype AlbumRequest = AlbumRequest(
    name: Option<string>,
    description: Option<string>,
    exposure: Option<string>,
    slug: Option<string>)

  /** `!name?.trim()` */
  predicate NameMissing(req: AlbumRequest) {
    req.name.None? || IsBlank(req.name.value)
  }

  /** `slug?.trim() || nanoid(12)`: the slug the variant search starts from. */
  function StartSlug(slug: Option<string>, token: string): (base: string)
    ensures slug.Some? && !IsBlank(slug.value) ==> base == Trim(slug.value)
    ensures slug.None? || IsBlank(slug.value) ==> base == token
  {
    if slug.Some? && Trim(slug.value) != "" then Trim(slug.value) else token
  }

  /**
   * `createAlbum(data, userId)`: refuse a blank name, then try the start slug,
   * `-1`, `-2`, ... until one is free (no cap, no exact-or-fail mode), and
   * save with the name and description trimmed and exposure `private` unless
   * the request names one.
   */
  method CreateAlbum(t: Table, req: AlbumRequest, userId: Option<UserId>, newId: string, token: string, now: int)
    returns (t': Table, r: Result<AlbumView, AlbumError>)
    requires newId !in t
    requires IsAlbumToken(token)
    ensures r.Err? ==> t' == t
    ensures r == Err(NameRequired) <==> NameMissing(req)
    ensures r.Ok? <==> !NameMissing(req) && (req.exposure.None? || ParseExposure(req.exposure.value).Some?)
    ensures r.Ok? ==> newId in t' && t' == t[newId := t'[newId]]
    ensures r.Ok? ==>
      var a := t'[newId];
      var base := StartSlug(req.slug, token);
      && a.id == newId
      && RequiredPresent(a)
      && a.slug !in SlugsOf(t)
      && (exists k :: 0 <= k <= |SlugsOf(t)| && a.slug == Candidate(base, k) && TakenBelow(SlugsOf(t), base, k))
      && (base !in SlugsOf(t) ==> a.slug == base)
      && a.name == Trim(req.name.value)
      && a.description == Trim(req.description.GetOr(""))
      && a.authorId == userId
      && (req.exposure.None? ==> a.exposure == DefaultExposure)
      && a.images == []
      && r.value == Sanitize(a)
    ensures UniqueSlugs(t) ==> UniqueSlugs(t')
    ensures WellKeyed(t) ==> WellKeyed(t')
  {
    t' := t;
    if NameMissing(req) {
      return t, Err(NameRequired);
    }
    var base := StartSlug(req.slug, token);
    var slug := UncappedSuffixSearch(SlugsOf(t), base);
    var exposure := ParseExposure(req.exposure.GetOr(ExposureName(DefaultExposure)));
    if exposure.None? {
      return t, Err(ValidationFailed);
    }
    assert req.exposure.None? ==> exposure.value == DefaultExposure;
    ghost var k :| 0 <= k <= |SlugsOf(t)| && slug == Candidate(base, k) && TakenBelow(SlugsOf(t), base, k);
    assert |slug| >= |base| > 0;
    assert Trim(req.name.value) != "";
    var a := Album(newId, Trim(req.name.value), slug, Trim(req.description.GetOr("")), userId, now, exposure.value, []);
    if UniqueSlugs(t) {
      AddFreshKeepsUnique(t, newId, a);
    }
    if WellKeyed(t) {
      StoreKeepsKeys(t, newId, a);
    }
    t' := t[newId := a];
    r := Ok(Sanitize(a));
  }

  // ---------------------------------------------------------------- access

  /** `canAccessAlbum(album, userId)`: a private album needs a recorded author equal to the viewer. */
  function CanAccessAlbum(a: Album, viewer: Option<UserId>): (c: Check<AlbumError>)
    ensures c.Pass? <==> a.exposure == Public || a.exposure == Unlisted || IsOwner(viewer, a.authorId)
    ensures c.Fail? ==> c.error == ViewDenied && a.exposure == Private
  {
    var isOwner := IsOwner(viewer, a.authorId);
    match a.exposure
    case Public => Pass
    case Unlisted => Pass
    case Private => if isOwner then Pass else Fail(ViewDenied)
  }

  /** A private album with no author is shown to nobody, signed in or not. */
  lemma OwnerlessPrivateAlbumIsHidden(a: Album, viewer: Option<UserId>)
    requires a.exposure == Private && a.authorId.None?
    ensures CanAccessAlbum(a, viewer) == Fail(ViewDenied)
  {
  }

  // ---------------------------------------------------------------- writes

  /** `album.authorId && String(album.authorId) === String(userId)`: ownerless albums may be changed by no one. */
  predicate MayModify(a: Album, caller: Option<UserId>) {
    IsOwner(caller, a.authorId)
  }

  /** The whitelisted fields of an update; `None` is a key the request did not send. */
  datatype AlbumUpdate = AlbumUpdate(
    name: Option<string>,
    description: Option<string>,
    exposure: Option<string>,
    slug: Option<string>)

  /** `filtered.slug` after the rename rule: a non-empty name with no non-empty slug brings a fresh token. */
  function RenameSlug(u: AlbumUpdate, token: string): Option<string> {
    if Supplied(u.name) && !Supplied(u.slug) then Some(token) else u.slug
  }

  /**
   * The slug step: a non-empty requested slug that differs from the current
   * one is trimmed and refused if another album holds it; anything else is
   * passed through as it is.
   */
  function CheckedSlug(t: Table, id: string, current: string, requested: Option<string>)
    : (r: Result<Option<string>, AlbumError>)
    ensures Supplied(requested) && requested.value != current ==>
      if Trim(requested.value) in SlugsOf(t - {id}) then r == Err(SlugInUse) else r == Ok(Some(Trim(requested.value)))
    ensures !(Supplied(requested) && requested.value != current) ==> r == Ok(requested)
  {
    if Supplied(requested) && requested.value != current then
      var slug := Trim(requested.value);
      if slug in SlugsOf(t - {id}) then Err(SlugInUse) else Ok(Some(slug))
    else Ok(requested)
  }

  /** The row after the filtered fields are assigned; its exposure is checked at save. */
  function ApplyUpdate(a: Album, u: AlbumUpdate, slug: Option<string>, e: Exposure): Album {
    a.(name := if u.name.Some? then Trim(u.name.value) else a.name,
       description := u.description.GetOr(a.description),
       slug := slug.GetOr(a.slug),
       exposure := e)
  }

  /** The exposure an update leaves, or `None` when the requested name is not an album exposure. */
  function ExposureAfter(a: Album, u: AlbumUpdate): Option<Exposure> {
    if u.exposure.Some? then ParseExposure(u.exposure.value) else Some(a.exposure)
  }

  /**
   * `updateAlbum(albumId, updates, userId)`: only the author may update; only
   * name, description, exposure and slug are copied; a new name brings a new
   * random slug unless one is given; a changed slug is trimmed and must be
   * free among the other albums; the save validates the result.
   */
  function UpdateAlbum(t: Table, id: string, u: AlbumUpdate, caller: Option<UserId>, token: string)
    : (s: Step<Table, AlbumView, AlbumError>)
    requires IsAlbumToken(token)
    ensures s.result.Err? ==> s.state == t
    ensures id !in t ==> s.result == Err(NotExist)
    ensures id in t && !MayModify(t[id], caller) ==> s.result == Err(NoEditPermission)
    ensures id in t && MayModify(t[id], caller) && Supplied(u.slug) && u.slug.value != t[id].slug
              && Trim(u.slug.value) in SlugsOf(t - {id})
            ==> s.result == Err(SlugInUse)
    ensures s.result.Ok? <==>
      && id in t && MayModify(t[id], caller)
      && CheckedSlug(t, id, t[id].slug, RenameSlug(u, token)).Ok?
      && ExposureAfter(t[id], u).Some?
      && RequiredPresent(ApplyUpdate(t[id], u, CheckedSlug(t, id, t[id].slug, RenameSlug(u, token)).value,
                                     ExposureAfter(t[id], u).value))
    ensures s.result.Ok? ==>
      && id in t && MayModify(t[id], caller)
      && id in s.state && s.state == t[id := s.state[id]]
      && var old_, new_ := t[id], s.state[id];
      && new_.(name := old_.name, description := old_.description, slug := old_.slug,
               exposure := old_.exposure) == old_
      && RequiredPresent(new_)
      && (u.name.Some? ==> new_.name == Trim(u.name.value))
      && (u.description.Some? ==> new_.description == u.description.value)
      && (u.exposure.Some? ==> ExposureName(new_.exposure) == u.exposure.value)
      && (Supplied(u.name) && !Supplied(u.slug) ==> new_.slug == token)
      && (Supplied(u.slug) && u.slug.value != old_.slug ==> new_.slug == Trim(u.slug.value))
      && (new_.slug == old_.slug || new_.slug !in SlugsOf(t - {id}))
      && s.result.value == Sanitize(new_)
    ensures UniqueSlugs(t) ==> UniqueSlugs(s.state)
  {
    if id !in t then Step(t, Err(NotExist))
    else
      var a := t[id];
      if !MayModify(a, caller) then Step(t, Err(NoEditPermission))
      else
        match CheckedSlug(t, id, a.slug, RenameSlug(u, token))
        case Err(e) => Step(t, Err(e))
        case Ok(slug) =>
          match ExposureAfter(a, u)
          case None => Step(t, Err(ValidationFailed))
          case Some(e) =>
            var a' := ApplyUpdate(a, u, slug, e);
            if !RequiredPresent(a') then Step(t, Err(ValidationFailed))
            else
              UpdatedRowFollowsRequest(t, id, u, token, slug, e);
              if UniqueSlugs(t) then
                ReplaceKeepsUnique(t, id, a');
                Step(t[id := a'], Ok(Sanitize(a')))
              else Step(t[id := a'], Ok(Sanitize(a')))
  }

  /** What the row becomes once the slug step and the exposure check pass. */
  lemma UpdatedRowFollowsRequest(t: Table, id: string, u: AlbumUpdate, token: string, slug: Option<string>, e: Exposure)
    requires id in t && IsAlbumToken(token)
    requires CheckedSlug(t, id, t[id].slug, RenameSlug(u, token)) == Ok(slug)
    requires u.exposure.Some? ==> ParseExposure(u.exposure.value) == Some(e)
    requires RequiredPresent(ApplyUpdate(t[id], u, slug, e))
    ensures var old_, new_ := t[id], ApplyUpdate(t[id], u, slug, e);
      && new_.(name := old_.name, description := old_.description, slug := old_.slug,
               exposure := old_.exposure) == old_
      && (u.name.Some? ==> new_.name == Trim(u.name.value))
      && (u.description.Some? ==> new_.description == u.description.value)
      && (u.exposure.Some? ==> ExposureName(new_.exposure) == u.exposure.value)
      && (Supplied(u.name) && !Supplied(u.slug) ==> new_.slug == token)
      && (Supplied(u.slug) && u.slug.value != old_.slug ==> new_.slug == Trim(u.slug.value))
      && (new_.slug == old_.slug || new_.slug !in SlugsOf(t - {id}))
  {
    TrimWithoutSpace(token);
  }

  /** `deleteAlbum(albumId, userId)`: unlike images, deleting a missing album is an error. */
  function DeleteAlbum(t: Table, id: string, caller: Option<UserId>): (s: Step<Table, (), AlbumError>)
    ensures id !in t ==> s == Step(t, Err(NotExist))
    ensures id in t && !MayModify(t[id], caller) ==> s == Step(t, Err(NoDeletePermission))
    ensures id in t && MayModify(t[id], caller) ==> s == Step(t - {id}, Ok(()))
    ensures s.result.Ok? <==> id in t && MayModify(t[id], caller)
  {
    if id !in t then Step(t, Err(NotExist))
    else if !MayModify(t[id], caller) then Step(t, Err(NoDeletePermission))
    else Step(t - {id}, Ok(()))
  }

  /** An album with no author can be neither updated nor deleted, whoever asks. */
  lemma OwnerlessAlbumIsImmutable(t: Table, id: string, u: AlbumUpdate, caller: Option<UserId>, token: string)
    requires id in t && t[id].authorId.None? && IsAlbumToken(token)
    ensures UpdateAlbum(t, id, u, caller, token) == Step(t, Err(NoEditPermission))
    ensures DeleteAlbum(t, id, caller) == Step(t, Err(NoDeletePermission))
  {
  }

  // ---------------------------------------------------------------- search

  /** `{ $or: [{ name: regex }, { description: regex }], exposure: { $in: ["public", "unlisted"] } }` */
  predicate Searchable(a: Album, matches: string -> bool) {
    (a.exposure == Public || a.exposure == Unlisted) && (matches(a.name) || matches(a.description))
  }

  /** The rows the search query selects, in query order. */
  function SearchFilter(docs: seq<Album>, matches: string -> bool): (r: seq<AlbumView>)
    ensures |r| <= |docs|
    ensures forall v :: v in r ==> v.exposure == Public || v.exposure == Unlisted
    ensures forall v :: v in r ==> exists i :: 0 <= i < |docs| && Searchable(docs[i], matches) && v == Sanitize(docs[i])
    ensures forall i :: 0 <= i < |docs| && Searchable(docs[i], matches) ==> Sanitize(docs[i]) in r
  {
    if docs == [] then []
    else
      var rest := SearchFilter(docs[1..], matches);
      assert forall i :: 1 <= i < |docs| ==> docs[i] == docs[1..][i - 1];
      assert forall v :: v in rest ==>
        exists i :: 0 <= i < |docs| && Searchable(docs[i], matches) && v == Sanitize(docs[i]) by {
        forall v | v in rest
          ensures exists i :: 0 <= i < |docs| && Searchable(docs[i], matches) && v == Sanitize(docs[i])
        {
          var j :| 0 <= j < |docs[1..]| && Searchable(docs[1..][j], matches) && v == Sanitize(docs[1..][j]);
          assert docs[j + 1] == docs[1..][j];
        }
      }
      if Searchable(docs[0], matches) then [Sanitize(docs[0])] + rest else rest
  }

  /** The search answer: the matching albums and how many there are (pagination left out). */
  datatype SearchResult = SearchResult(albums: seq<AlbumView>, total: nat)

  /**
   * `searchAlbums(query)`: a blank or absent query finds nothing; otherwise
   * `matches` is the case-insensitive pattern built from the trimmed query.
   */
  function SearchAlbums(docs: seq<Album>, query: Option<string>, matches: string -> bool): (r: SearchResult)
    ensures query.None? || IsBlank(query.value) ==> r == SearchResult([], 0)
    ensures r.total == |r.albums|
    ensures forall v :: v in r.albums ==> v.exposure != Private
    ensures query.Some? && !IsBlank(query.value) ==>
      forall i :: 0 <= i < |docs| ==> (Sanitize(docs[i]) in r.albums <== Searchable(docs[i], matches))
    ensures query.Some? && !IsBlank(query.value) ==>
      forall v :: v in r.albums ==> exists i :: 0 <= i < |docs| && Searchable(docs[i], matches) && v == Sanitize(docs[i])
  {
    if query.None? || Trim(query.value) == "" then SearchResult([], 0)
    else
      var found := SearchFilter(docs, matches);
      SearchResult(found, |found|)
  }
}

=== FILE: bookmark_controller.dfy ===
/**
 * The bookmark handlers (controllers/bookmarkController.js): toggle, check
 * and list. The viewer id is a parameter; which image and album ids exist
 * is given as two sets.
 */
module BookmarkController {
  import opened Wrappers
  import opened Common
  import opened BookmarkModel

  /** A toggle response: an error status with its message, or the new state and count (200). */
  datatype ToggleReply =
    | Refused(status: nat, message: string)
    | Toggled(bookmarked: bool, count: nat)

  /** The existence check of the target: `Image.findById` or `Album.findById`. */
  predicate TargetExists(t: TargetType, targetId: string, images: set<string>, albums: set<string>) {
    if t == ImageTarget then targetId in images else targetId in albums
  }

  /**
   * `toggleBookmark`: 401 without a viewer, 400 for a bad target type, 400
   * for a missing target id, 404 for a target that does not exist; then
   * create the row, or, when the unique index reports it already exists,
   * delete it. `createFails` stands for any other error of the create, which
   * becomes a 500 with nothing written.
   */
  function ToggleBookmark(l: Ledger, viewer: Option<UserId>, targetType: Option<string>, targetId: Option<string>,
                          images: set<string>, albums: set<string>, createFails: bool, now: int)
    : (s: Step<Ledger, ToggleReply, ()>)
    ensures s.result.Ok?
    ensures viewer.None? ==> s == Step(l, Ok(Refused(401, "Authentication required")))
    ensures viewer.Some? && (targetType.None? || ParseTargetType(targetType.value).None?) ==>
      s == Step(l, Ok(Refused(400, "Invalid targetType")))
    ensures viewer.Some? && targetType.Some? && ParseTargetType(targetType.value).Some? && !Supplied(targetId) ==>
      s == Step(l, Ok(Refused(400, "Missing targetId")))
    ensures viewer.Some? && targetType.Some? && ParseTargetType(targetType.value).Some? && Supplied(targetId) ==>
      var k := Key(viewer.value, ParseTargetType(targetType.value).value, targetId.value);
      && (!TargetExists(k.targetType, k.targetId, images, albums) ==>
            s == Step(l, Ok(Refused(404, if k.targetType == ImageTarget then "Image not found" else "Album not found"))))
      && (TargetExists(k.targetType, k.targetId, images, albums) && k !in l && createFails ==>
            s == Step(l, Ok(Refused(500, "Server error"))))
      && (TargetExists(k.targetType, k.targetId, images, albums) && (k in l || !createFails) ==>
            s.result.value.Toggled?)
    ensures s.result.value.Refused? && s.result.value.status != 500 ==> s.state == l
    ensures s.result.value.Toggled? ==>
      && viewer.Some? && targetType.Some? && Supplied(targetId)
      && var k := Key(viewer.value, ParseTargetType(targetType.value).value, targetId.value);
      && TargetExists(k.targetType, k.targetId, images, albums)
      && (k !in l ==> s.state == l[k := now] && s.result.value.bookmarked)
      && (k in l ==> s.state == l - {k} && !s.result.value.bookmarked)
      && s.result.value.count == Count(s.state, k.targetType, k.targetId)
    ensures forall k: Key :: viewer.None? || k.userId != viewer.value ==>
      (k in s.state <==> k in l) && (k in l ==> s.state[k] == l[k])
  {
    if viewer.None? then Step(l, Ok(Refused(401, "Authentication required")))
    else if targetType.None? || ParseTargetType(targetType.value).None? then
      Step(l, Ok(Refused(400, "Invalid targetType")))
    else if !Supplied(targetId) then Step(l, Ok(Refused(400, "Missing targetId")))
    else
      var t := ParseTargetType(targetType.value).value;
      if !TargetExists(t, targetId.value, images, albums) then
        Step(l, Ok(Refused(404, if t == ImageTarget then "Image not found" else "Album not found")))
      else
        var k := Key(viewer.value, t, targetId.value);
        if k in l then
          var l' := l - {k};
          Step(l', Ok(Toggled(false, Count(l', t, targetId.value))))
        else if createFails then Step(l, Ok(Refused(500, "Server error")))
        else
          var l' := l[k := now];
          Step(l', Ok(Toggled(true, Count(l', t, targetId.value))))
  }

  /** A toggle that goes through moves the target's count by exactly one, up on create and down on delete. */
  lemma ToggleMovesCountByOne(l: Ledger, viewer: Option<UserId>, targetType: Option<string>, targetId: Option<string>,
                              images: set<string>, albums: set<string>, createFails: bool, now: int)
    requires ToggleBookmark(l, viewer, targetType, targetId, images, albums, createFails, now).result.value.Toggled?
    ensures var r := ToggleBookmark(l, viewer, targetType, targetId, images, albums, createFails, now).result.value;
      var t := ParseTargetType(targetType.value).value;
      r.count == if r.bookmarked then Count(l, t, targetId.value) + 1 else Count(l, t, targetId.value) - 1
  {
    var k := Key(viewer.value, ParseTargetType(targetType.value).value, targetId.value);
    if k in l {
      CountAfterRemove(l, k);
    } else {
      CountAfterAdd(l, k, now);
    }
  }

  /**
   * Toggling the same target twice leaves the same bookmarks and the same
   * count; when the first toggle created the row, the table is restored exactly.
   */
  lemma ToggleTwiceRestores(l: Ledger, viewer: Option<UserId>, targetType: Option<string>, targetId: Option<string>,
                            images: set<string>, albums: set<string>, now1: int, now2: int)
    requires ToggleBookmark(l, viewer, targetType, targetId, images, albums, false, now1).result.value.Toggled?
    ensures
      var l1 := ToggleBookmark(l, viewer, targetType, targetId, images, albums, false, now1).state;
      var s2 := ToggleBookmark(l1, viewer, targetType, targetId, images, albums, false, now2);
      var t := ParseTargetType(targetType.value).value;
      && s2.result.value.Toggled?
      && s2.state.Keys == l.Keys
      && s2.result.value.count == Count(l, t, targetId.value)
      && (Key(viewer.value, t, targetId.value) !in l ==> s2.state == l)
  {
    var t := ParseTargetType(targetType.value).value;
    var k := Key(viewer.value, t, targetId.value);
    if k in l {
      assert (l - {k})[k := now2].Keys == l.Keys;
      assert Holders((l - {k})[k := now2], t, targetId.value) == Holders(l, t, targetId.value);
    } else {
      assert l[k := now1] - {k} == l;
    }
  }

  /** `checkBookmark`'s answer: missing parameters, or whether the row exists. */
  datatype CheckReply = MissingParams | Checked(bookmarked: bool)

  /**
   * `checkBookmark`: the parameter check comes before the viewer check, and
   * an anonymous viewer is told `false` rather than refused.
   */
  function CheckBookmark(l: Ledger, viewer: Option<UserId>, targetType: Option<string>, targetId: Option<string>)
    : (r: CheckReply)
    ensures !Supplied(targetType) || !Supplied(targetId) <==> r == MissingParams
    ensures Supplied(targetType) && Supplied(targetId) && viewer.None? ==> r == Checked(false)
    ensures r == Checked(true) <==>
      && viewer.Some? && Supplied(targetType) && Supplied(targetId)
      && ParseTargetType(targetType.value).Some?
      && Key(viewer.value, ParseTargetType(targetType.value).value, targetId.value) in l
  {
    if !Supplied(targetType) || !Supplied(targetId) then MissingParams
    else if viewer.None? then Checked(false)
    else
      match ParseTargetType(targetType.value)
      case None => Checked(false)
      case Some(t) => Checked(Key(viewer.value, t, targetId.value) in l)
  }

  /** Right after a toggle, the check agrees with what the toggle reported. */
  lemma CheckAgreesWithToggle(l: Ledger, viewer: Option<UserId>, targetType: Option<string>, targetId: Option<string>,
                              images: set<string>, albums: set<string>, createFails: bool, now: int)
    requires ToggleBookmark(l, viewer, targetType, targetId, images, albums, createFails, now).result.value.Toggled?
    ensures var s := ToggleBookmark(l, viewer, targetType, targetId, images, albums, createFails, now);
      CheckBookmark(s.state, viewer, targetType, targetId) == Checked(s.result.value.bookmarked)
  {
  }

  /** The type filter `getBookmarks` applies: only `image` and `album` restrict the list. */
  function TypeFilter(kind: Option<string>): (f: Option<TargetType>)
    ensures f.Some? <==> kind.Some? && (kind.value == "image" || kind.value == "album")
  {
    if kind.Some? then ParseTargetType(kind.value) else None
  }

  /** `getBookmarks`: the caller's own rows, optionally of one type (sorting left out). */
  function GetBookmarks(l: Ledger, viewer: UserId, kind: Option<string>): (r: set<Key>)
    ensures forall k :: k in r ==> k in l && k.userId == viewer
    ensures forall k :: k in l && k.userId == viewer ==>
      (k in r <==> TypeFilter(kind).None? || k.targetType == TypeFilter(kind).value)
  {
    set k | k in l && k.userId == viewer && (TypeFilter(kind).None? || k.targetType == TypeFilter(kind).value)
  }

  /** An unrecognised type is ignored, and a recognised one only narrows the list. */
  lemma UnknownTypeIsIgnored(l: Ledger, viewer: UserId, kind: string)
    ensures kind != "image" && kind != "album" ==> GetBookmarks(l, viewer, Some(kind)) == GetBookmarks(l, viewer, None)
    ensures GetBookmarks(l, viewer, Some(kind)) <= GetBookmarks(l, viewer, None)
  {
  }
}

=== FILE: bookmark_model.dfy ===
/**
 * The bookmark record (models/Bookmark.js). The compound unique index on
 * (user, target type, target id) makes the table a map from that triple to
 * the row's creation time.
 */
module BookmarkModel {
  import opened Wrappers
  import opened Common

  /** What can be bookmarked. */
  datatype TargetType = ImageTarget | AlbumTarget

  function TargetTypeName(t: TargetType): string {
    match t
    case ImageTarget => "image"
    case AlbumTarget => "album"
  }

  /** The schema's enum validator. */
  function ParseTargetType(s: string): (r: Option<TargetType>)
    ensures r.Some? <==> s == "image" || s == "album"
    ensures r.Some? ==> TargetTypeName(r.value) == s
  {
    if s == "image" then Some(ImageTarget) else if s == "album" then Some(AlbumTarget) else None
  }

  /** The three required fields, which together identify a row. */
  datatype Key = Key(userId: UserId, targetType: TargetType, targetId: string)

  /** The bookmarks table: each key at most once, with its `createdAt` time. */
  type Ledger = map<Key, int>

  /** The keys bookmarking one target. */
  function Holders(l: Ledger, t: TargetType, targetId: string): set<Key> {
    set k | k in l && k.targetType == t && k.targetId == targetId
  }

  /** `Bookmark.countDocuments({ targetType, targetId })`: a recount, not a stored counter. */
  function Count(l: Ledger, t: TargetType, targetId: string): nat {
    |Holders(l, t, targetId)|
  }

  /** Adding a new bookmark of a target raises that target's count by one. */
  lemma CountAfterAdd(l: Ledger, k: Key, at: int)
    requires k !in l
    ensures Count(l[k := at], k.targetType, k.targetId) == Count(l, k.targetType, k.targetId) + 1
  {
    assert Holders(l[k := at], k.targetType, k.targetId) == Holders(l, k.targetType, k.targetId) + {k};
  }

  /** Removing a bookmark of a target lowers that target's count by one. */
  lemma CountAfterRemove(l: Ledger, k: Key)
    requires k in l
    ensures Count(l - {k}, k.targetType, k.targetId) == Count(l, k.targetType, k.targetId) - 1
  {
    assert Holders(l - {k}, k.targetType, k.targetId) == Holders(l, k.targetType, k.targetId) - {k};
  }

  /** Other targets' counts do not move when one key is added or removed. */
  lemma OtherCountsUnchanged(l: Ledger, k: Key, at: int, t: TargetType, targetId: string)
    requires t != k.targetType || targetId != k.targetId
    ensures Count(l[k := at], t, targetId) == Count(l, t, targetId)
    ensures Count(l - {k}, t, targetId) == Count(l, t, targetId)
  {
    assert Holders(l[k := at], t, targetId) == Holders(l, t, targetId);
    assert Holders(l - {k}, t, targetId) == Holders(l, t, targetId);
  }
}

=== FILE: common.dfy ===
/**
 * Identifiers, passwords and the password-hash relation shared by every service.
 *
 * bcrypt is modelled as an injective digest: a password matches the digest made
 * from it and no other. Salt and cost factor do not affect that relation and are
 * not modelled.
 */
module Common {
  import opened Wrappers

  /**
   * A user id as the services compare it. JavaScript treats `""` like `null`
   * in `userId && ...` tests, so an empty id is represented as `None`.
   */
  type UserId = s: string | s != "" witness "u"

  /** A stored password hash. */
  datatype Digest = Digest(secret: string)

  /** `bcrypt.hash(password, rounds)`. */
  function Hash(password: string): (d: Digest)
    ensures Matches(password, d)
  {
    Digest(password)
  }

  /** `bcrypt.compare(password, digest)`. */
  predicate Matches(password: string, d: Digest) {
    d.secret == password
  }

  /** A digest accepts exactly the password it was made from. */
  lemma HashAcceptsOnlyItsPassword(p: string, q: string)
    ensures Matches(p, Hash(q)) <==> p == q
  {
  }

  /** A password field is "given" when it is present and not the empty (falsy) string. */
  predicate Supplied(password: Option<string>) {
    password.Some? && password.value != ""
  }

  /** `viewer && authorId === viewer`: a present viewer who is the recorded author. */
  predicate IsOwner(viewer: Option<UserId>, author: Option<UserId>) {
    viewer.Some? && author == viewer
  }

  /**
   * A date field written from a request: `value ? new Date(value) : null`.
   * The timestamp 0 is falsy and is stored as no date at all.
   */
  function DateOrNull(value: Option<int>): (r: Option<int>)
    ensures r.Some? <==> value.Some? && value.value != 0
    ensures r.Some? ==> r == value
  {
    if value.Some? && value.value != 0 then value else None
  }
}

=== FILE: image_controller.dfy ===
/**
 * The upload handler (controllers/imageController.js): the object key an
 * uploaded file is stored under, the public URL and the share link. The
 * bucket is a map from keys to contents; the bucket name, region, uuid,
 * clock and a failing upload are parameters.
 */
module ImageController {
  import opened Wrappers
  import opened Text
  import opened Common

  // ---------------------------------------------------------------- sanitiser

  /** The characters `[a-zA-Z0-9-]` a key segment keeps. */
  predicate Allowed(c: char) {
    ('a' <= c <= 'z') || ('A' <= c <= 'Z') || ('0' <= c <= '9') || c == '-'
  }

  predicate IsClean(s: string) {
    forall i :: 0 <= i < |s| ==> Allowed(s[i])
  }

  /** `s.replace(/[^a-zA-Z0-9-]/g, "-")` */
  function Clean(s: string): (r: string)
    ensures |r| == |s| && IsClean(r)
    ensures forall i :: 0 <= i < |s| && Allowed(s[i]) ==> r[i] == s[i]
    ensures forall i :: 0 <= i < |s| && !Allowed(s[i]) ==> r[i] == '-'
  {
    seq(|s|, i requires 0 <= i < |s| => if Allowed(s[i]) then s[i] else '-')
  }

  /** A clean string is left alone, and only a clean string is. */
  lemma CleanFixesExactlyClean(s: string)
    ensures Clean(s) == s <==> IsClean(s)
  {
    if !IsClean(s) {
      var i :| 0 <= i < |s| && !Allowed(s[i]);
      assert Clean(s)[i] != s[i];
    }
  }

  /** Cleaning twice is cleaning once. */
  lemma CleanIdempotent(s: string)
    ensures Clean(Clean(s)) == Clean(s)
  {
    CleanFixesExactlyClean(Clean(s));
  }

  /** Different names can be cleaned into the same key segment. */
  lemma CleanConflatesNames()
    ensures Clean("a b") == Clean("a_b") == "a-b"
  {
  }

  /** A clean string has neither a path separator nor a dot. */
  lemma CleanHasNoSeparators(s: string)
    requires IsClean(s)
    ensures '/' !in s && '.' !in s
  {
  }

  // ---------------------------------------------------------------- keys

  /** `slug?.trim() || fallback` */
  function NameOr(slug: Option<string>, fallback: string): (n: string)
    ensures slug.Some? && Trim(slug.value) != "" ==> n == Trim(slug.value)
    ensures slug.None? || Trim(slug.value) == "" ==> n == fallback
  {
    if slug.Some? && Trim(slug.value) != "" then Trim(slug.value) else fallback
  }

  /** The file name inside an album: the slug, or `img-` and the first 8 characters of a uuid. */
  function AlbumFileName(slug: Option<string>, uuid: string): string {
    Clean(NameOr(slug, "img-" + Take(uuid, 8)))
  }

  /** The file name of a loose drawing: the slug, or `draw-` and the upload time in milliseconds. */
  function DrawingFileName(slug: Option<string>, now: nat): string {
    Clean(NameOr(slug, "draw-" + NatToString(now)))
  }

  /**
   * The object key: `albums/<clean albumId>/<name>.png` when an album id is
   * given (non-empty), `i/<name>.png` otherwise.
   */
  function UploadKey(albumId: Option<string>, slug: Option<string>, uuid: string, now: nat): (key: string)
    ensures Supplied(albumId) ==>
      key == "albums/" + Clean(Trim(albumId.value)) + "/" + AlbumFileName(slug, uuid) + ".png"
    ensures !Supplied(albumId) ==> key == "i/" + DrawingFileName(slug, now) + ".png"
  {
    if Supplied(albumId) then "albums/" + Clean(Trim(albumId.value)) + "/" + AlbumFileName(slug, uuid) + ".png"
    else "i/" + DrawingFileName(slug, now) + ".png"
  }

  /** `key.split("/").pop()`: what follows the last `/`. */
  function LastSegment(s: string): (r: string)
    ensures |r| <= |s| && r == s[|s| - |r|..]
    ensures '/' !in r
    ensures |r| < |s| ==> s[|s| - |r| - 1] == '/'
  {
    if s == [] then []
    else if s[|s| - 1] == '/' then []
    else
      var r := LastSegment(s[..|s| - 1]) + [s[|s| - 1]];
      assert s[..|s| - 1][|s| - |r|..] + [s[|s| - 1]] == s[|s| - |r|..];
      r
  }

  /** `pat` occurs in `s` at `i` and nowhere before. */
  predicate FirstAt(s: string, pat: string, i: nat) {
    OccursAt(s, pat, i) && forall j: nat :: j < i ==> !OccursAt(s, pat, j)
  }

  /** `s.replace(pat, "")` for a string pattern: the first occurrence is removed. */
  function RemoveFirst(s: string, pat: string): (r: string)
    requires pat != []
    ensures !Contains(s, pat) ==> r == s
    ensures Contains(s, pat) ==> exists i: nat :: FirstAt(s, pat, i) && r == s[..i] + s[i + |pat|..]
    ensures |r| == |s| || |r| == |s| - |pat|
    decreases |s|
  {
    if |s| < |pat| then s
    else if s[..|pat|] == pat then
      assert FirstAt(s, pat, 0);
      s[|pat|..]
    else
      var rest := RemoveFirst(s[1..], pat);
      if !Contains(s, pat) then
        NotContainedInTail(s, pat);
        [s[0]] + rest
      else
        FirstInTail(s, pat);
        RemovedInTail(s, pat, rest);
        [s[0]] + rest
  }

  /** Removing the tail's first occurrence removes the first occurrence of `s`. */
  lemma RemovedInTail(s: string, pat: string, rest: string)
    requires pat != [] && |s| >= |pat| && s[..|pat|] != pat
    requires exists i: nat :: FirstAt(s[1..], pat, i) && rest == s[1..][..i] + s[1..][i + |pat|..]
    ensures exists i: nat :: FirstAt(s, pat, i) && [s[0]] + rest == s[..i] + s[i + |pat|..]
  {
    var i: nat :| FirstAt(s[1..], pat, i) && rest == s[1..][..i] + s[1..][i + |pat|..];
    forall j: nat | j < i + 1 ensures !OccursAt(s, pat, j) {
      if j > 0 {
        OccursInTail(s, pat, j - 1);
      }
    }
    OccursInTail(s, pat, i);
    assert [s[0]] + rest == s[..i + 1] + s[i + 1 + |pat|..];
    assert FirstAt(s, pat, i + 1);
  }

  /** An occurrence at `j + 1` in `s` is one at `j` in its tail. */
  lemma OccursInTail(s: string, pat: string, j: nat)
    requires s != []
    ensures OccursAt(s, pat, j + 1) <==> OccursAt(s[1..], pat, j)
  {
    if j + 1 + |pat| <= |s| {
      assert s[j + 1..j + 1 + |pat|] == s[1..][j..j + |pat|];
    }
  }

  /** A pattern that occurs in `s` but not at its start occurs in its tail. */
  lemma FirstInTail(s: string, pat: string)
    requires pat != [] && |s| >= |pat| && s[..|pat|] != pat && Contains(s, pat)
    ensures Contains(s[1..], pat)
  {
    var k: nat :| k <= |s| && OccursAt(s, pat, k);
    assert k != 0;
    OccursInTail(s, pat, k - 1);
  }

  /** If `pat` is absent from `s`, it is absent from the tail of `s`. */
  lemma NotContainedInTail(s: string, pat: string)
    requires s != [] && !Contains(s, pat)
    ensures !Contains(s[1..], pat)
  {
    forall i: nat | i <= |s[1..]| ensures !OccursAt(s[1..], pat, i) {
      if OccursAt(s[1..], pat, i) {
        assert s[i + 1..i + 1 + |pat|] == s[1..][i..i + |pat|];
        assert OccursAt(s, pat, i + 1);
      }
    }
  }

  /** Stripping `.png` from `name.png` gives back `name` when the name has no dot. */
  lemma {:induction false} RemoveSuffixPng(name: string)
    requires '.' !in name
    ensures RemoveFirst(name + ".png", ".png") == name
    decreases |name|
  {
    var s := name + ".png";
    if name == [] {
      assert s[..4] == ".png";
    } else {
      assert s[..4][0] == name[0] != '.';
      assert s[1..] == name[1..] + ".png";
      RemoveSuffixPng(name[1..]);
    }
  }

  /** The last segment of `prefix/name` is `name` when the name has no `/`. */
  lemma {:induction false} LastSegmentAfterSlash(prefix: string, name: string)
    requires '/' !in name
    ensures LastSegment(prefix + "/" + name) == name
    decreases |name|
  {
    var s := prefix + "/" + name;
    if name == [] {
      assert s[|s| - 1] == '/';
    } else {
      assert s[..|s| - 1] == prefix + "/" + name[..|name| - 1];
      LastSegmentAfterSlash(prefix, name[..|name| - 1]);
      assert name[..|name| - 1] + [name[|name| - 1]] == name;
    }
  }

  // ---------------------------------------------------------------- links

  const DefaultRegion: string := "ap-southeast-1"
  const DefaultAlbumTitle: string := "My Album"
  const SiteOrigin: string := "https://gizmo.app"

  /** `${bucket}` of an unset variable prints `undefined`. */
  function BucketText(bucket: Option<string>): (t: string)
    ensures bucket.Some? ==> t == bucket.value
    ensures bucket.None? ==> t == "undefined"
  {
    if bucket.Some? then bucket.value else "undefined"
  }

  /** The public URL of an object. */
  function ObjectUrl(bucket: Option<string>, region: Option<string>, key: string): (url: string)
    ensures Supplied(region) ==>
      url == "https://" + BucketText(bucket) + ".s3." + region.value + ".amazonaws.com/" + key
    ensures !Supplied(region) ==>
      url == "https://" + BucketText(bucket) + ".s3." + DefaultRegion + ".amazonaws.com/" + key
  {
    "https://" + BucketText(bucket) + ".s3." + (if Supplied(region) then region.value else DefaultRegion)
      + ".amazonaws.com/" + key
  }

  /**
   * The share link: the album page for the raw album id; otherwise the
   * image page for the raw slug, or, with no slug, the key's file name
   * without `.png`.
   */
  function ShareLink(albumId: Option<string>, slug: Option<string>, key: string): string {
    if Supplied(albumId) then SiteOrigin + "/album/" + albumId.value
    else SiteOrigin + "/i/" + (if Supplied(slug) then slug.value else RemoveFirst(LastSegment(key), ".png"))
  }

  // ---------------------------------------------------------------- upload

  /** The objects of the bucket, by key. */
  type Bucket = map<string, seq<bv8>>

  datatype UploadReply =
    | NoFile(status: nat, message: string)
    | UploadFailed(status: nat, message: string, error: string)
    | Uploaded(imageUrl: string, shareLink: string, key: string, albumId: Option<string>, albumTitle: string)

  /** The request body fields the handler reads. */
  datatype UploadRequest = UploadRequest(slug: Option<string>, albumId: Option<string>, albumTitle: Option<string>)

  /**
   * `uploadImage`: no file is 400 and nothing is written; otherwise the file
   * is put under its key, overwriting whatever was there, unless the upload
   * fails (`failure` carries its message), which is 500 with nothing written.
   */
  function UploadImage(b: Bucket, req: UploadRequest, file: Option<seq<bv8>>, uuid: string, now: nat,
                       bucket: Option<string>, region: Option<string>, failure: Option<string>)
    : (s: (Bucket, UploadReply))
    ensures file.None? ==> s == (b, NoFile(400, "No image file received"))
    ensures file.Some? && failure.Some? ==> s == (b, UploadFailed(500, "Upload failed", failure.value))
    ensures s.1.Uploaded? <==> file.Some? && failure.None?
    ensures s.1.Uploaded? ==>
      var key := UploadKey(req.albumId, req.slug, uuid, now);
      && s.0 == b[key := file.value]
      && s.1.key == key
      && s.1.imageUrl == ObjectUrl(bucket, region, key)
      && s.1.shareLink == ShareLink(req.albumId, req.slug, key)
      && s.1.albumId == req.albumId
      && s.1.albumTitle == (if Supplied(req.albumTitle) then req.albumTitle.value else DefaultAlbumTitle)
  {
    if file.None? then (b, NoFile(400, "No image file received"))
    else
      var key := UploadKey(req.albumId, req.slug, uuid, now);
      if failure.Some? then (b, UploadFailed(500, "Upload failed", failure.value))
      else
        (b[key := file.value],
         Uploaded(ObjectUrl(bucket, region, key), ShareLink(req.albumId, req.slug, key), key, req.albumId,
                  if Supplied(req.albumTitle) then req.albumTitle.value else DefaultAlbumTitle))
  }

  /** Every file name is non-empty and clean, so it holds neither `/` nor `.`. */
  lemma FileNamesAreClean(slug: Option<string>, uuid: string, now: nat)
    ensures IsClean(AlbumFileName(slug, uuid)) && AlbumFileName(slug, uuid) != ""
    ensures IsClean(DrawingFileName(slug, now)) && DrawingFileName(slug, now) != ""
  {
  }

  /** With no album and no slug, the share link names the stored drawing's file exactly. */
  lemma ShareLinkNamesStoredFile(slug: Option<string>, uuid: string, now: nat)
    requires !Supplied(slug)
    ensures ShareLink(None, slug, UploadKey(None, slug, uuid, now)) == SiteOrigin + "/i/" + DrawingFileName(slug, now)
  {
    var name := DrawingFileName(slug, now);
    CleanHasNoSeparators(name);
    assert UploadKey(None, slug, uuid, now) == "i" + "/" + (name + ".png");
    LastSegmentAfterSlash("i", name + ".png");
    RemoveSuffixPng(name);
  }

  /** A slug that is already trimmed and clean names the stored file too. */
  lemma CleanSlugLinksToItsKey(slug: string, uuid: string, now: nat)
    requires slug != "" && IsClean(slug)
    ensures UploadKey(None, Some(slug), uuid, now) == "i/" + slug + ".png"
    ensures ShareLink(None, Some(slug), UploadKey(None, Some(slug), uuid, now)) == SiteOrigin + "/i/" + slug
  {
    TrimWithoutSpace(slug);
    CleanFixesExactlyClean(slug);
  }

  /** A slug with no padding names the drawing, cleaned. */
  lemma TrimmedSlugNamesFile(slug: string, now: nat)
    requires slug != "" && Trim(slug) == slug
    ensures DrawingFileName(Some(slug), now) == Clean(slug)
  {
  }

  /**
   * A slug is linked as given, never as stored: whenever trimming and
   * cleaning change a non-blank slug, the share link names a file other than
   * the one uploaded.
   */
  lemma ShareLinkIgnoresCleaning(slug: string, uuid: string, now: nat)
    requires Trim(slug) != "" && DrawingFileName(Some(slug), now) != slug
    ensures UploadKey(None, Some(slug), uuid, now) == "i/" + DrawingFileName(Some(slug), now) + ".png"
    ensures ShareLink(None, Some(slug), UploadKey(None, Some(slug), uuid, now)) == SiteOrigin + "/i/" + slug
    ensures ShareLink(None, Some(slug), UploadKey(None, Some(slug), uuid, now))
            != SiteOrigin + "/i/" + DrawingFileName(Some(slug), now)
  {
    var prefix := SiteOrigin + "/i/";
    assert (prefix + slug)[|prefix|..] == slug;
  }

  /** The case that shows it: `my pic` is stored as `i/my-pic.png` but linked as `/i/my pic`. */
  lemma SpacedSlugExample(slug: string, uuid: string, now: nat, key: string)
    requires slug == "my pic"
    ensures UploadKey(None, Some(slug), uuid, now) == "i/my-pic.png"
    ensures ShareLink(None, Some(slug), key) == SiteOrigin + "/i/my pic"
  {
    TrimUnpadded(slug);
    TrimmedSlugNamesFile(slug, now);
    var name := Clean(slug);
    assert name == "my-pic" by {
      assert name[2] == '-';
    }
    assert UploadKey(None, Some(slug), uuid, now) == "i/" + name + ".png";
  }

  /**
   * Once a slug is given, the key depends on nothing else, neither the uuid
   * nor the clock: a second upload with the same slug to the same place
   * overwrites the first object.
   */
  lemma KeyDependsOnSlugOnly(albumId: Option<string>, slug: Option<string>, u1: string, u2: string, n1: nat, n2: nat)
    requires slug.Some? && Trim(slug.value) != ""
    ensures UploadKey(albumId, slug, u1, n1) == UploadKey(albumId, slug, u2, n2)
  {
  }
}

=== FILE: image_model.dfy ===
/** The image record (models/Image.js): its enums, defaults and the table of images. */
module ImageModel {
  import opened Wrappers
  import opened Common

  /** Who may see an image. */
  datatype Exposure = Public | PasswordProtected | Unlisted | Private

  function ExposureName(e: Exposure): string {
    match e
    case Public => "public"
    case PasswordProtected => "password_protected"
    case Unlisted => "unlisted"
    case Private => "private"
  }

  /** The schema's enum validator: only the four names are accepted. */
  function ParseExposure(s: string): (r: Option<Exposure>)
    ensures r.Some? ==> ExposureName(r.value) == s
    ensures r.None? ==> forall e :: ExposureName(e) != s
  {
    if s == "public" then Some(Public)
    else if s == "password_protected" then Some(PasswordProtected)
    else if s == "unlisted" then Some(Unlisted)
    else if s == "private" then Some(Private)
    else None
  }

  /** The exposure a create request gets when it names none. */
  const DefaultExposure: Exposure := Public

  /** The accepted file types. */
  datatype ImageType = Png | Jpg | Jpeg | Gif | Webp | Svg | Avif

  function ImageTypeName(t: ImageType): string {
    match t
    case Png => "png"
    case Jpg => "jpg"
    case Jpeg => "jpeg"
    case Gif => "gif"
    case Webp => "webp"
    case Svg => "svg"
    case Avif => "avif"
  }

  function ParseImageType(s: string): (r: Option<ImageType>)
    ensures r.Some? ==> ImageTypeName(r.value) == s
    ensures r.None? ==> forall t :: ImageTypeName(t) != s
  {
    if s == "png" then Some(Png)
    else if s == "jpg" then Some(Jpg)
    else if s == "jpeg" then Some(Jpeg)
    else if s == "gif" then Some(Gif)
    else if s == "webp" then Some(Webp)
    else if s == "svg" then Some(Svg)
    else if s == "avif" then Some(Avif)
    else None
  }

  /** Every name the schema accepts parses back to the value it names, and nothing else parses. */
  lemma EnumNamesRoundTrip(e: Exposure, t: ImageType, s: string)
    ensures ParseExposure(ExposureName(e)) == Some(e)
    ensures ParseImageType(ImageTypeName(t)) == Some(t)
    ensures ParseExposure(s).Some? <==> s in {"public", "password_protected", "unlisted", "private"}
    ensures ParseImageType(s).Some? <==> s in {"png", "jpg", "jpeg", "gif", "webp", "svg", "avif"}
  {
  }

  /**
   * One stored image. `views` starts at 0; `hashedPassword`, `expiredAt`,
   * `authorId` and `albumId` are null unless set.
   */
  datatype Image = Image(
    id: string,
    caption: string,
    slug: string,
    imageUrl: string,
    imageSize: int,
    imageType: ImageType,
    hashedPassword: Option<Digest>,
    exposure: Exposure,
    views: nat,
    createdAt: int,
    expiredAt: Option<int>,
    authorId: Option<UserId>,
    albumId: Option<string>)

  /** The required string fields are non-empty. */
  predicate RequiredPresent(img: Image) {
    img.slug != "" && img.imageUrl != ""
  }

  /** The images table, by id. */
  type Table = map<string, Image>

  /** Each row is stored under its own id. */
  predicate WellKeyed(t: Table) {
    forall id :: id in t ==> t[id].id == id
  }

  /** The unique index on `slug`. */
  predicate UniqueSlugs(t: Table) {
    forall a, b :: a in t && b in t && t[a].slug == t[b].slug ==> a == b
  }

  /** The slugs the table holds. */
  function SlugsOf(t: Table): set<string> {
    set id | id in t :: t[id].slug
  }

  /** `Image.findOne({ slug })` under the unique index. */
  function FindBySlug(t: Table, slug: string): (r: Option<string>)
    requires UniqueSlugs(t)
    ensures r.Some? ==> r.value in t && t[r.value].slug == slug
    ensures r.None? ==> slug !in SlugsOf(t)
  {
    if slug in SlugsOf(t) then
      var id :| id in t && t[id].slug == slug;
      Some(id)
    else None
  }
}

=== FILE: image_service.dfy ===
/**
 * The image service (service/imageService.js): slug allocation, creation,
 * the read path with lazy expiry, the exposure policy, owner-only writes and
 * the public projection of a record.
 */
module ImageService {
  import opened Wrappers
  import opened Text
  import opened Common
  import opened Slugs
  import opened ImageModel

  /** The errors the service throws, each with its exact message. */
  datatype ImageError =
    | MissingInfo
    | SlugTaken
    | PrivateNeedsLogin
    | ValidationFailed
    | DuplicateSlug
    | NotExist
    | Expired
    | NoPasswordSet
    | PasswordRequired
    | IncorrectPassword
    | ViewDenied
    | NoPermission
    | NoDeletePermission
  {
    function Message(): string {
      match this
      case MissingInfo => "Missing image information"
      case SlugTaken => "Slug already in use"
      case PrivateNeedsLogin => "Private images require login"
      // raised by the schema validator and the unique index, not by the service
      case ValidationFailed => "Image validation failed"
      case DuplicateSlug => "E11000 duplicate key error"
      case NotExist => "Image does not exist"
      case Expired => "Image has expired"
      case NoPasswordSet => "This image does not have a password set"
      case PasswordRequired => "Password required"
      case IncorrectPassword => "Incorrect password"
      case ViewDenied => "You do not have permission to view this image"
      case NoPermission => "No permission"
      case NoDeletePermission => "No permission to delete"
    }

    /** Only the custom-slug collision carries a machine-readable code. */
    function Code(): Option<string> {
      if SlugTaken? then Some("SLUG_TAKEN") else None
    }
  }

  /** What a caller sees of an image: no password hash, and the author only for the owner. */
  datatype ImageView = ImageView(
    id: string,
    caption: string,
    slug: string,
    imageUrl: string,
    imageSize: int,
    imageType: ImageType,
    exposure: Exposure,
    views: nat,
    createdAt: int,
    expiredAt: Option<int>,
    authorId: Option<UserId>,
    albumId: Option<string>)

  /** `_sanitize(image, viewerId)` */
  function Sanitize(img: Image, viewer: Option<UserId>): (v: ImageView)
    ensures v.authorId.Some? <==> IsOwner(viewer, img.authorId)
    ensures v.authorId.Some? ==> v.authorId == img.authorId
    ensures v.id == img.id && v.slug == img.slug && v.exposure == img.exposure && v.views == img.views
  {
    ImageView(img.id, img.caption, img.slug, img.imageUrl, img.imageSize, img.imageType,
              img.exposure, img.views, img.createdAt, img.expiredAt,
              if IsOwner(viewer, img.authorId) then img.authorId else None,
              img.albumId)
  }

  /** The projection does not depend on the stored hash: it can never leak it. */
  lemma SanitizeIgnoresHash(img: Image, h: Option<Digest>, viewer: Option<UserId>)
    ensures Sanitize(img.(hashedPassword := h), viewer) == Sanitize(img, viewer)
  {
  }

  // ---------------------------------------------------------------- slugs

  /** `preferred?.trim()`, with an absent slug read as blank. */
  function Base(preferred: Option<string>): string {
    if preferred.Some? then Trim(preferred.value) else ""
  }

  /**
   * `generateUniqueSlug(preferred, isCustom)`, also inlined at the start of
   * `createImage`. A custom slug is kept exactly or refused; a preferred one
   * gets the first free numbered variant up to `-500`, then `-501` unchecked;
   * a blank one becomes a fresh 10-character token.
   */
  method GenerateUniqueSlug(taken: set<string>, preferred: Option<string>, isCustom: bool, tokens: seq<string>)
    returns (r: Result<string, ImageError>)
    requires Base(preferred) == "" ==> TokenStream(taken, tokens, ImageTokenLength)
    ensures r.Err? <==> Base(preferred) != "" && isCustom && Base(preferred) in taken
    ensures r.Err? ==> r.error == SlugTaken
    ensures r.Ok? && Base(preferred) != "" && isCustom ==> r.value == Base(preferred) && r.value !in taken
    ensures r.Ok? && Base(preferred) != "" && !isCustom ==>
      exists k :: 0 <= k <= SuffixCap + 1 && r.value == Candidate(Base(preferred), k)
        && TakenBelow(taken, Base(preferred), k)
        && (r.value in taken ==> k == SuffixCap + 1)
    ensures r.Ok? && Base(preferred) == "" ==> |r.value| == ImageTokenLength && r.value !in taken
    ensures r.Ok? ==>
      (r.value in taken <==> !isCustom && Base(preferred) != "" && TakenBelow(taken, Base(preferred), SuffixCap + 2))
  {
    var base := Base(preferred);
    if base != "" {
      if isCustom {
        if base in taken {
          return Err(SlugTaken);
        }
        return Ok(base);
      }
      var s := CappedSuffixSearch(taken, base);
      return Ok(s);
    }
    var s := FreshToken(taken, tokens, ImageTokenLength);
    return Ok(s);
  }

  /** A preferred slug already taken resolves to its first free variant: `x` taken gives `x-1`. */
  lemma SuggestedSlugTakesFirstVariant(taken: set<string>, base: string, slug: string)
    requires exists k :: 0 <= k <= SuffixCap + 1 && slug == Candidate(base, k) && TakenBelow(taken, base, k)
    requires base in taken && Suffixed(base, 1) !in taken
    requires slug !in taken
    ensures slug == Suffixed(base, 1)
  {
    var k :| 0 <= k <= SuffixCap + 1 && slug == Candidate(base, k) && TakenBelow(taken, base, k);
    assert Candidate(base, 1) !in taken;
    assert k <= 1;
  }

  // ---------------------------------------------------------------- create

  /** The fields of a create request; absent strings are `""`, an absent size is 0. */
  datatype CreateRequest = CreateRequest(
    caption: string,
    imageUrl: string,
    imageSize: int,
    imageType: string,
    exposure: Option<string>,
    password: Option<string>,
    albumId: Option<string>,
    expiredAt: Option<int>,
    slug: Option<string>,
    isCustomSlug: bool)

  /** `!imageUrl || !imageSize || !imageType` */
  predicate MissingFields(req: CreateRequest) {
    req.imageUrl == "" || req.imageSize == 0 || req.imageType == ""
  }

  /** `exposure = "public"`: the exposure name a create request asks for. */
  function RequestedExposure(req: CreateRequest): string {
    req.exposure.GetOr(ExposureName(DefaultExposure))
  }

  /** A custom slug that is already held: the one refusal of the slug step. */
  predicate CustomSlugTaken(taken: set<string>, req: CreateRequest) {
    req.isCustomSlug && Base(req.slug) != "" && Base(req.slug) in taken
  }

  /**
   * Every variant the capped search may return, `base` through `base-501`,
   * is held: the search then hands back a held slug and the save fails on
   * the unique index.
   */
  predicate VariantsExhausted(taken: set<string>, req: CreateRequest) {
    !req.isCustomSlug && Base(req.slug) != "" && TakenBelow(taken, Base(req.slug), SuffixCap + 2)
  }

  /** `albumId || null` */
  function AlbumOrNull(albumId: Option<string>): Option<string> {
    if albumId.Some? && albumId.value != "" then albumId else None
  }

  /**
   * `createImage(data, userId)`: validate, allocate the slug, hash the
   * password if one is given, refuse anonymous private images, then save
   * (where the schema and the unique slug index can still refuse).
   */
  method CreateImage(t: Table, req: CreateRequest, userId: Option<UserId>, newId: string,
                     tokens: seq<string>, now: int)
    returns (t': Table, r: Result<ImageView, ImageError>)
    requires newId !in t
    requires Base(req.slug) == "" ==> TokenStream(SlugsOf(t), tokens, ImageTokenLength)
    ensures r.Err? ==> t' == t
    ensures MissingFields(req) ==> r == Err(MissingInfo)
    ensures !MissingFields(req) && CustomSlugTaken(SlugsOf(t), req) ==> r == Err(SlugTaken)
    ensures !MissingFields(req) && !CustomSlugTaken(SlugsOf(t), req)
            && RequestedExposure(req) == "private" && userId.None?
      ==> r == Err(PrivateNeedsLogin)
    ensures r.Ok? <==>
      && !MissingFields(req)
      && !CustomSlugTaken(SlugsOf(t), req)
      && !(RequestedExposure(req) == "private" && userId.None?)
      && ParseExposure(RequestedExposure(req)).Some?
      && ParseImageType(req.imageType).Some?
      && !VariantsExhausted(SlugsOf(t), req)
    ensures r.Ok? ==> newId in t' && t' == t[newId := t'[newId]]
    ensures r.Ok? ==>
      var img := t'[newId];
      && img.id == newId
      && img.slug !in SlugsOf(t)
      && RequiredPresent(img)
      && img.caption == Trim(req.caption)
      && img.imageUrl == req.imageUrl && img.imageSize == req.imageSize
      && ImageTypeName(img.imageType) == req.imageType
      && ExposureName(img.exposure) == RequestedExposure(req)
      && img.views == 0
      && img.expiredAt == DateOrNull(req.expiredAt)
      && img.albumId == AlbumOrNull(req.albumId)
      && img.authorId == userId
      && (img.exposure == Private ==> userId.Some?)
      && (req.exposure.None? ==> img.exposure == DefaultExposure)
      && (img.hashedPassword.Some? <==> Supplied(req.password))
      && (Supplied(req.password) ==> Matches(req.password.value, img.hashedPassword.value))
      && (req.isCustomSlug && Base(req.slug) != "" ==> img.slug == Base(req.slug))
      && (Base(req.slug) == "" ==> |img.slug| == ImageTokenLength)
      && r.value == Sanitize(img, userId)
    ensures UniqueSlugs(t) ==> UniqueSlugs(t')
    ensures WellKeyed(t) ==> WellKeyed(t')
  {
    t' := t;
    if MissingFields(req) {
      return t, Err(MissingInfo);
    }
    var slug := GenerateUniqueSlug(SlugsOf(t), req.slug, req.isCustomSlug, tokens);
    if slug.Err? {
      return t, Err(slug.error);
    }
    var hashed := if Supplied(req.password) then Some(Hash(req.password.value)) else None;
    var exposureName := RequestedExposure(req);
    if exposureName == "private" && userId.None? {
      return t, Err(PrivateNeedsLogin);
    }
    var exposure := ParseExposure(exposureName);
    var imageType := ParseImageType(req.imageType);
    if exposure.None? || imageType.None? {
      return t, Err(ValidationFailed);
    }
    if slug.value in SlugsOf(t) {
      // only the capped search can get here, with `base-501`
      return t, Err(DuplicateSlug);
    }
    var img := Image(newId, Trim(req.caption), slug.value, req.imageUrl, req.imageSize, imageType.value,
                     hashed, exposure.value, 0, now, DateOrNull(req.expiredAt), userId, AlbumOrNull(req.albumId));
    if UniqueSlugs(t) {
      FreshSlugKeepsUnique(t, newId, img);
    }
    if WellKeyed(t) {
      StoreKeepsKeys(t, newId, img);
    }
    t' := t[newId := img];
    r := Ok(Sanitize(img, userId));
  }

  /** Adding a row whose slug no row holds keeps the unique index satisfied. */
  lemma FreshSlugKeepsUnique(t: Table, id: string, img: Image)
    requires UniqueSlugs(t) && img.slug !in SlugsOf(t)
    ensures UniqueSlugs(t[id := img])
  {
    assert forall a :: a in t ==> t[a].slug in SlugsOf(t);
  }

  /** Storing a row under its own id keeps every row under its own id. */
  lemma StoreKeepsKeys(t: Table, id: string, img: Image)
    requires WellKeyed(t) && img.id == id
    ensures WellKeyed(t[id := img])
  {
  }

  // ---------------------------------------------------------------- access

  /** `_checkExpired`: a set expiry strictly before now. */
  predicate IsExpired(img: Image, now: int) {
    img.expiredAt.Some? && img.expiredAt.value < now
  }

  /** Expiry is strict: an image whose expiry is exactly now is still live, one a moment later is not. */
  lemma ExpiryIsStrict(img: Image, now: int)
    requires img.expiredAt == Some(now)
    ensures !IsExpired(img, now) && IsExpired(img, now + 1)
  {
  }

  /** The read column of the exposure table: who may see an image. */
  ghost predicate MayRead(img: Image, viewer: Option<UserId>, password: Option<string>) {
    match img.exposure
    case Public => true
    case Unlisted => true
    case Private => IsOwner(viewer, img.authorId)
    case PasswordProtected =>
      img.hashedPassword.Some? && Supplied(password) && Matches(password.value, img.hashedPassword.value)
  }

  /**
   * `canAccessImage(image, userId, password)`. For a password-protected image
   * the checks run in order (no hash, no password, wrong password) and
   * ownership is never consulted.
   */
  function CanAccessImage(img: Image, viewer: Option<UserId>, password: Option<string>): (c: Check<ImageError>)
    ensures c.Pass? <==> MayRead(img, viewer, password)
    ensures c == Fail(ViewDenied) <==> img.exposure == Private && !IsOwner(viewer, img.authorId)
    ensures c == Fail(NoPasswordSet) <==> img.exposure == PasswordProtected && img.hashedPassword.None?
    ensures c == Fail(PasswordRequired) <==>
      img.exposure == PasswordProtected && img.hashedPassword.Some? && !Supplied(password)
    ensures c == Fail(IncorrectPassword) <==>
      img.exposure == PasswordProtected && img.hashedPassword.Some? && Supplied(password)
      && !Matches(password.value, img.hashedPassword.value)
  {
    var isOwner := IsOwner(viewer, img.authorId);
    if img.exposure == Public then Pass
    else if img.exposure == Unlisted then Pass
    else if img.exposure == Private && isOwner then Pass
    else if img.exposure == PasswordProtected then
      if img.hashedPassword.None? then Fail(NoPasswordSet)
      else if !Supplied(password) then Fail(PasswordRequired)
      else if !Matches(password.value, img.hashedPassword.value) then Fail(IncorrectPassword)
      else Pass
    else Fail(ViewDenied)
  }

  /** The owner of a password-protected image gets no bypass: the outcome does not depend on the viewer. */
  lemma PasswordCheckIgnoresViewer(img: Image, v1: Option<UserId>, v2: Option<UserId>, password: Option<string>)
    requires img.exposure == PasswordProtected
    ensures CanAccessImage(img, v1, password) == CanAccessImage(img, v2, password)
  {
  }

  /**
   * The read path shared by `getImageById`, `getImageBySlug` and `shareImage`
   * once the row is found: an expired image is deleted and reported, then the
   * access check runs, and only after it passes are views incremented. The
   * returned projection is taken from the row as it was read, before the increment.
   */
  function ReadFound(t: Table, img: Image, viewer: Option<UserId>, password: Option<string>, now: int)
    : (s: Step<Table, ImageView, ImageError>)
    requires img.id in t && t[img.id] == img
    ensures IsExpired(img, now) ==> s == Step(t - {img.id}, Err(Expired))
    ensures !IsExpired(img, now) && CanAccessImage(img, viewer, password).Fail? ==>
      s == Step(t, Err(CanAccessImage(img, viewer, password).error))
    ensures s.result.Ok? <==> !IsExpired(img, now) && MayRead(img, viewer, password)
    ensures s.result.Ok? ==>
      && s.state == t[img.id := img.(views := img.views + 1)]
      && s.result.value == Sanitize(img, viewer)
  {
    if IsExpired(img, now) then Step(t - {img.id}, Err(Expired))
    else
      match CanAccessImage(img, viewer, password)
      case Fail(e) => Step(t, Err(e))
      case Pass => Step(t[img.id := img.(views := img.views + 1)], Ok(Sanitize(img, viewer)))
  }

  /** `getImageById(id, userId, password)` */
  function GetImageById(t: Table, id: string, viewer: Option<UserId>, password: Option<string>, now: int)
    : (s: Step<Table, ImageView, ImageError>)
    requires WellKeyed(t)
    ensures id !in t ==> s == Step(t, Err(NotExist))
    ensures id in t ==> s == ReadFound(t, t[id], viewer, password, now)
  {
    if id !in t then Step(t, Err(NotExist)) else ReadFound(t, t[id], viewer, password, now)
  }

  /** `getImageBySlug(slug, password)`: the same path with no viewer at all. */
  function GetImageBySlug(t: Table, slug: string, password: Option<string>, now: int)
    : (s: Step<Table, ImageView, ImageError>)
    requires WellKeyed(t) && UniqueSlugs(t)
    ensures slug !in SlugsOf(t) ==> s == Step(t, Err(NotExist))
    ensures slug in SlugsOf(t) ==> s == ReadFound(t, t[FindBySlug(t, slug).value], None, password, now)
    ensures s.result.Ok? ==> s.result.value.slug == slug && s.result.value.exposure != Private
    ensures s.result.Ok? ==> s.result.value.authorId.None?
  {
    match FindBySlug(t, slug)
    case None => Step(t, Err(NotExist))
    case Some(id) => ReadFound(t, t[id], None, password, now)
  }

  // ---------------------------------------------------------------- writes

  /** `!(image.authorId && image.authorId !== userId)`: ownerless images may be changed by anyone. */
  predicate MayModify(img: Image, caller: Option<UserId>) {
    img.authorId.None? || img.authorId == caller
  }

  /** The whitelisted fields of an update; `None` is a key the request did not send. */
  datatype ImageUpdate = ImageUpdate(
    caption: Option<string>,
    exposure: Option<string>,
    albumId: Option<string>,
    expiredAt: Option<int>,
    password: Option<string>)

  /** The exposure name an update leaves: a password key overrides any exposure sent with it. */
  function UpdatedExposureName(img: Image, u: ImageUpdate): string {
    if u.password.Some? then
      (if u.password.value != "" then "password_protected" else "public")
    else u.exposure.GetOr(ExposureName(img.exposure))
  }

  /** The row after applying an update whose exposure name parsed to `e`. */
  function ApplyUpdate(img: Image, u: ImageUpdate, e: Exposure): Image {
    img.(
      caption := u.caption.GetOr(img.caption),
      exposure := e,
      hashedPassword :=
        if u.password.Some? then (if u.password.value != "" then Some(Hash(u.password.value)) else None)
        else img.hashedPassword,
      expiredAt := if u.expiredAt.Some? then DateOrNull(u.expiredAt) else img.expiredAt,
      albumId := if u.albumId.Some? then AlbumOrNull(u.albumId) else img.albumId)
  }

  /**
   * `updateImage(id, updates, userId)`: only caption, exposure, albumId,
   * expiredAt and password are copied. A non-empty password sets a new hash
   * and forces `password_protected`; an empty one clears the hash and forces
   * `public`.
   */
  function UpdateImage(t: Table, id: string, u: ImageUpdate, caller: Option<UserId>)
    : (s: Step<Table, ImageView, ImageError>)
    ensures s.result.Err? ==> s.state == t
    ensures id !in t ==> s.result == Err(NotExist)
    ensures id in t && !MayModify(t[id], caller) ==> s.result == Err(NoPermission)
    ensures s.result.Ok? <==>
      id in t && MayModify(t[id], caller) && ParseExposure(UpdatedExposureName(t[id], u)).Some?
    ensures s.result.Ok? ==>
      && id in t && MayModify(t[id], caller)
      && id in s.state && s.state == t[id := s.state[id]]
      && var old_, new_ := t[id], s.state[id];
      && new_.(caption := old_.caption, exposure := old_.exposure, hashedPassword := old_.hashedPassword,
               expiredAt := old_.expiredAt, albumId := old_.albumId) == old_
      && new_.caption == u.caption.GetOr(old_.caption)
      && (u.albumId.Some? ==> new_.albumId == AlbumOrNull(u.albumId))
      && (u.albumId.None? ==> new_.albumId == old_.albumId)
      && (u.expiredAt.Some? ==> new_.expiredAt == DateOrNull(u.expiredAt))
      && (u.expiredAt.None? ==> new_.expiredAt == old_.expiredAt)
      && (u.password.None? && u.exposure.Some? ==> ExposureName(new_.exposure) == u.exposure.value)
      && (u.password.None? && u.exposure.None? ==> new_.exposure == old_.exposure)
      && (Supplied(u.password) ==>
            new_.exposure == PasswordProtected && new_.hashedPassword == Some(Hash(u.password.value)))
      && (u.password == Some("") ==> new_.exposure == Public && new_.hashedPassword.None?)
      && (u.password.None? ==> new_.hashedPassword == old_.hashedPassword)
      && s.result.value == Sanitize(new_, caller)
  {
    if id !in t then Step(t, Err(NotExist))
    else
      var img := t[id];
      if !MayModify(img, caller) then Step(t, Err(NoPermission))
      else
        match ParseExposure(UpdatedExposureName(img, u))
        case None => Step(t, Err(ValidationFailed))
        case Some(e) =>
          var img' := ApplyUpdate(img, u, e);
          Step(t[id := img'], Ok(Sanitize(img', caller)))
  }

  /** `setPassword(id, newPassword, userId)`: always leaves the image password-protected. */
  function SetPassword(t: Table, id: string, newPassword: string, caller: Option<UserId>)
    : (s: Step<Table, (), ImageError>)
    ensures s.result.Err? ==> s.state == t
    ensures id !in t ==> s.result == Err(NotExist)
    ensures id in t && !MayModify(t[id], caller) ==> s.result == Err(NoPermission)
    ensures s.result.Ok? <==> id in t && MayModify(t[id], caller)
    ensures s.result.Ok? ==>
      && s.state == t[id := t[id].(hashedPassword := Some(Hash(newPassword)), exposure := PasswordProtected)]
  {
    if id !in t then Step(t, Err(NotExist))
    else if !MayModify(t[id], caller) then Step(t, Err(NoPermission))
    else Step(t[id := t[id].(hashedPassword := Some(Hash(newPassword)), exposure := PasswordProtected)], Ok(()))
  }

  /** After a password change the new password opens the image and every other one is refused. */
  lemma SetPasswordRotates(t: Table, id: string, p: string, q: string, caller: Option<UserId>, viewer: Option<UserId>)
    requires SetPassword(t, id, p, caller).result.Ok?
    requires p != "" && q != "" && q != p
    ensures var img := SetPassword(t, id, p, caller).state[id];
      && CanAccessImage(img, viewer, Some(p)) == Pass
      && CanAccessImage(img, viewer, Some(q)) == Fail(IncorrectPassword)
  {
  }

  /** `deleteImage(id, userId)`: a missing image is a silent no-op. */
  function DeleteImage(t: Table, id: string, caller: Option<UserId>): (s: Step<Table, (), ImageError>)
    ensures id !in t ==> s == Step(t, Ok(()))
    ensures id in t && !MayModify(t[id], caller) ==> s == Step(t, Err(NoDeletePermission))
    ensures id in t && MayModify(t[id], caller) ==> s.result.Ok? && id !in s.state
    ensures forall other :: other != id ==> (other in s.state <==> other in t)
    ensures forall other :: other != id && other in t ==> s.state[other] == t[other]
  {
    if id !in t then Step(t, Ok(()))
    else if !MayModify(t[id], caller) then Step(t, Err(NoDeletePermission))
    else Step(t - {id}, Ok(()))
  }

  /** `moveImageToAlbum(imageId, albumId, userId)`: only `albumId` changes; the album itself is not checked. */
  function MoveImageToAlbum(t: Table, id: string, albumId: Option<string>, caller: Option<UserId>)
    : (s: Step<Table, ImageView, ImageError>)
    ensures s.result.Err? ==> s.state == t
    ensures id !in t ==> s.result == Err(NotExist)
    ensures id in t && !MayModify(t[id], caller) ==> s.result == Err(NoPermission)
    ensures s.result.Ok? <==> id in t && MayModify(t[id], caller)
    ensures s.result.Ok? ==>
      && s.state == t[id := t[id].(albumId := AlbumOrNull(albumId))]
      && s.result.value == Sanitize(s.state[id], caller)
      && s.result.value.albumId == AlbumOrNull(albumId)
  {
    if id !in t then Step(t, Err(NotExist))
    else if !MayModify(t[id], caller) then Step(t, Err(NoPermission))
    else
      var img' := t[id].(albumId := AlbumOrNull(albumId));
      Step(t[id := img'], Ok(Sanitize(img', caller)))
  }

  /** An ownerless image accepts every write from every caller, anonymous included. */
  lemma OwnerlessImageIsWritableByAnyone(t: Table, id: string, u: ImageUpdate, caller: Option<UserId>)
    requires id in t && t[id].authorId.None?
    ensures UpdateImage(t, id, u, caller).result != Err(NoPermission)
    ensures DeleteImage(t, id, caller).result.Ok?
    ensures MoveImageToAlbum(t, id, None, caller).result.Ok?
  {
  }

  // ---------------------------------------------------------------- listing

  /** The album-listing filter: private images only for their owner, password-protected ones never. */
  predicate Listed(img: Image, viewer: Option<UserId>) {
    if img.exposure == Private then IsOwner(viewer, img.authorId)
    else img.exposure != PasswordProtected
  }

  /** `listImagesInAlbum(albumId, userId)` over the rows in query order (pagination left out). */
  function ListImagesInAlbum(docs: seq<Image>, albumId: string, viewer: Option<UserId>): (r: seq<ImageView>)
    ensures |r| <= |docs|
    ensures forall v :: v in r ==>
      v.exposure != PasswordProtected && (v.exposure == Private ==> viewer.Some? && v.authorId == viewer)
    ensures forall v :: v in r ==>
      exists i :: 0 <= i < |docs| && docs[i].albumId == Some(albumId) && v == Sanitize(docs[i], viewer)
    ensures forall i :: 0 <= i < |docs| && docs[i].albumId == Some(albumId) && Listed(docs[i], viewer) ==>
      Sanitize(docs[i], viewer) in r
  {
    if docs == [] then []
    else
      var rest := ListImagesInAlbum(docs[1..], albumId, viewer);
      assert forall v :: v in rest ==>
        exists i :: 0 <= i < |docs| && docs[i].albumId == Some(albumId) && v == Sanitize(docs[i], viewer) by {
        forall v | v in rest
          ensures exists i :: 0 <= i < |docs| && docs[i].albumId == Some(albumId) && v == Sanitize(docs[i], viewer)
        {
          var j :| 0 <= j < |docs[1..]| && docs[1..][j].albumId == Some(albumId) && v == Sanitize(docs[1..][j], viewer);
          assert docs[j + 1] == docs[1..][j];
        }
      }
      assert forall i :: 1 <= i < |docs| ==> docs[i] == docs[1..][i - 1];
      var img := docs[0];
      if img.albumId == Some(albumId) && Listed(img, viewer) then [Sanitize(img, viewer)] + rest else rest
  }
}

=== FILE: microsoft_auth.dfy ===
/**
 * The Microsoft sign-in callback (auth/microsoftAuth.js): link an external
 * identity to a user, creating the user if needed, and mint the session
 * claims. The code exchange is a parameter: `None` when it fails, otherwise
 * the identity it returns.
 */
module MicrosoftAuth {
  import opened Wrappers
  import opened Common
  import opened UserModel

  /** What the provider reports: its stable subject id and the account's e-mail. */
  datatype Identity = Identity(subject: string, email: string)

  /** An `AuthProvider` row's identity: which provider, and the user there. */
  datatype LinkKey = LinkKey(provider: string, subject: string)

  /** The provider-links table: each external identity points at one user id. */
  type Links = map<LinkKey, string>

  const Provider: string := "microsoft"

  /** `expiresIn: "7d"`, in seconds. */
  const SessionSeconds: nat := 7 * 24 * 60 * 60

  /** The signed claims: `user_id` is the linked user, `username` the provider e-mail. */
  datatype Claims = Claims(userId: string, username: string, expiresIn: nat)

  /** Where the browser is sent next. */
  datatype Outcome = MissingCode | OAuthFailed | SignedIn(claims: Claims)

  /** `login?error=...` or `auth/success?token=...`, relative to the front end. */
  function RedirectPath(o: Outcome): (path: string)
    ensures o.MissingCode? <==> path == "/login?error=missing_code"
    ensures o.OAuthFailed? <==> path == "/login?error=oauth_failed"
  {
    match o
    case MissingCode => "/login?error=missing_code"
    case OAuthFailed => "/login?error=oauth_failed"
    case SignedIn(_) => "/auth/success?token="
  }

  /** The two tables the callback reads and writes. */
  datatype Accounts = Accounts(users: Users, links: Links)

  /** A session for `userId` as this provider identity. */
  function Session(userId: string, who: Identity): (c: Claims)
    ensures c.userId == userId && c.username == who.email && c.expiresIn == 604800
  {
    Claims(userId, who.email, SessionSeconds)
  }

  /**
   * `handleMicrosoftCallback`: no code redirects at once. An existing link
   * decides the user (and a link to a vanished user fails). Otherwise a user
   * whose username is the e-mail is reused, or a provider-only user is
   * created, and one link is added. `linkFails` stands for a failed link
   * write, which comes after any user creation and does not undo it.
   */
  function HandleCallback(a: Accounts, code: Option<string>, exchange: Option<Identity>, newUserId: string,
                          linkFails: bool, now: int)
    : (s: (Accounts, Outcome))
    requires UniqueUsernames(a.users) && newUserId !in a.users
    ensures !Supplied(code) ==> s == (a, MissingCode)
    ensures Supplied(code) && exchange.None? ==> s == (a, OAuthFailed)
    ensures Supplied(code) && exchange.Some? ==>
      var who := exchange.value;
      var key := LinkKey(Provider, who.subject);
      && (key in a.links && a.links[key] in a.users ==>
            s == (a, SignedIn(Session(a.links[key], who))))
      && (key in a.links && a.links[key] !in a.users ==> s == (a, OAuthFailed))
      && (key !in a.links && FindByUsername(a.users, who.email).Some? ==>
            var id := FindByUsername(a.users, who.email).value;
            s.0.users == a.users
            && s == (if linkFails then (a, OAuthFailed)
                     else (Accounts(a.users, a.links[key := id]), SignedIn(Session(id, who)))))
      && (key !in a.links && FindByUsername(a.users, who.email).None? ==>
            var u := NewUser(newUserId, who.email, None, Some(Microsoft), now);
            && s.0.users == a.users[newUserId := u]
            && s.0.links == (if linkFails then a.links else a.links[key := newUserId])
            && s.1 == (if linkFails then OAuthFailed else SignedIn(Session(newUserId, who))))
    ensures s.1.SignedIn? ==> s.1.claims.userId in s.0.users
    ensures UniqueUsernames(s.0.users)
  {
    if !Supplied(code) then (a, MissingCode)
    else if exchange.None? then (a, OAuthFailed)
    else
      var who := exchange.value;
      var key := LinkKey(Provider, who.subject);
      if key in a.links then
        if a.links[key] in a.users then (a, SignedIn(Session(a.links[key], who)))
        else (a, OAuthFailed)
      else
        match FindByUsername(a.users, who.email)
        case Some(id) =>
          if linkFails then (a, OAuthFailed)
          else (Accounts(a.users, a.links[key := id]), SignedIn(Session(id, who)))
        case None =>
          var u := NewUser(newUserId, who.email, None, Some(Microsoft), now);
          AddNewNameKeepsUnique(a.users, newUserId, u);
          var users := a.users[newUserId := u];
          if linkFails then (Accounts(users, a.links), OAuthFailed)
          else (Accounts(users, a.links[key := newUserId]), SignedIn(Session(newUserId, who)))
  }

  /**
   * Signing in again with the same identity changes nothing and yields the
   * same session: the link written the first time decides the user.
   */
  lemma RepeatSignInIsIdempotent(a: Accounts, code: string, who: Identity, id1: string, id2: string, now1: int, now2: int)
    requires UniqueUsernames(a.users) && id1 !in a.users && code != ""
    requires HandleCallback(a, Some(code), Some(who), id1, false, now1).1.SignedIn?
    ensures var (a1, o1) := HandleCallback(a, Some(code), Some(who), id1, false, now1);
      id2 !in a1.users ==>
        HandleCallback(a1, Some(code), Some(who), id2, false, now2) == (a1, o1)
  {
  }

  /** A linked sign-in never looks at the account status: a soft-deleted user still gets a session. */
  lemma LinkedSignInIgnoresStatus(a: Accounts, code: string, who: Identity, newUserId: string, now: int)
    requires UniqueUsernames(a.users) && newUserId !in a.users && code != ""
    requires LinkKey(Provider, who.subject) in a.links
    requires var id := a.links[LinkKey(Provider, who.subject)]; id in a.users && a.users[id].status == Deleted
    ensures HandleCallback(a, Some(code), Some(who), newUserId, false, now).1.SignedIn?
  {
  }

  /**
   * A failed link write after creating a user leaves that user behind; the
   * next attempt finds it by e-mail and links it instead of creating another.
   */
  lemma RetryAfterFailedLinkReusesUser(a: Accounts, code: string, who: Identity, id1: string, id2: string, now1: int, now2: int)
    requires UniqueUsernames(a.users) && id1 !in a.users && code != ""
    requires LinkKey(Provider, who.subject) !in a.links && who.email !in UsernamesOf(a.users)
    requires id2 !in a.users && id2 != id1
    ensures var (a1, o1) := HandleCallback(a, Some(code), Some(who), id1, true, now1);
      && o1 == OAuthFailed && id1 in a1.users
      && var (a2, o2) := HandleCallback(a1, Some(code), Some(who), id2, false, now2);
      && a2.users == a1.users
      && o2 == SignedIn(Session(id1, who))
  {
    var (a1, _) := HandleCallback(a, Some(code), Some(who), id1, true, now1);
    assert a1.users[id1].username == who.email;
    assert FindByUsername(a1.users, who.email) == Some(id1);
  }
}

=== FILE: paste_model.dfy ===
/** The text-paste record (models/TextPaste.js), stored under its slug. */
module PasteModel {
  import opened Wrappers
  import opened Common

  datatype Exposure = Public | PasswordProtected | Unlisted | Private

  function ExposureName(e: Exposure): string {
    match e
    case Public => "public"
    case PasswordProtected => "password_protected"
    case Unlisted => "unlisted"
    case Private => "private"
  }

  /** The schema's enum validator. */
  function ParseExposure(s: string): (r: Option<Exposure>)
    ensures r.Some? ==> ExposureName(r.value) == s
    ensures r.None? ==> forall e :: ExposureName(e) != s
  {
    if s == "public" then Some(Public)
    else if s == "password_protected" then Some(PasswordProtected)
    else if s == "unlisted" then Some(Unlisted)
    else if s == "private" then Some(Private)
    else None
  }

  const DefaultExposure: Exposure := Public

  /**
   * One stored paste. `views` and `bookmarks` start at 0; `expiredAt` is a
   * numeric time-to-live; `hashedPassword` and `authorId` may be absent.
   */
  datatype Paste = Paste(
    slug: string,
    title: string,
    content: string,
    hashedPassword: Option<Digest>,
    exposure: Exposure,
    views: nat,
    bookmarks: nat,
    expiredAt: Option<int>,
    authorId: Option<UserId>,
    createdAt: int)

  /** `title` and `content` are required: the validator refuses empty strings. */
  predicate RequiredPresent(p: Paste) {
    p.title != "" && p.content != ""
  }

  /** The pastes table. The slug is the hash key, so a write under a slug replaces what was there. */
  type Store = map<string, Paste>

  /** Each paste is stored under its own slug. */
  predicate Keyed(s: Store) {
    forall k :: k in s ==> s[k].slug == k
  }
}

=== FILE: paste_service.dfy ===
/**
 * The paste service (service/pasteService.js): creation with an
 * exact-or-fail slug and a uuid fallback, the access check, the read path
 * with its expiry filter, owner-only updates and export.
 */
module PasteService {
  import opened Wrappers
  import opened Text
  import opened Common
  import opened PasteModel

  /** The errors the service raises, each with its exact message. */
  datatype PasteError =
    | SlugInUse
    | ValidationFailed
    | NotFound
    | AccessDenied
    | NotOwner
    | WrongPassword
    | HashMissing
    | InvalidFormat
  {
    function Message(): string {
      match this
      case SlugInUse => "Slug already in use."
      // raised by the schema validator, not by the service
      case ValidationFailed => "Paste validation failed"
      case NotFound => "NotFound"
      case AccessDenied => "AccessDenied: You cannot view this paste."
      case NotOwner => "AccessDenied"
      case WrongPassword => "WrongPassword: Password incorrect."
      // raised by bcrypt when the paste stores no hash
      case HashMissing => "data and hash arguments required"
      case InvalidFormat => "InvalidFormat"
    }
  }

  // ---------------------------------------------------------------- create

  /** The body of a create request; `None` is a key the request did not send. */
  datatype PasteRequest = PasteRequest(
    title: Option<string>,
    content: Option<string>,
    password: Option<string>,
    expiredAt: Option<int>,
    slug: Option<string>,
    exposure: Option<string>)

  /** `exposure || "public"`: an absent or empty exposure means public. */
  function ExposureNameOf(req: PasteRequest): string {
    if Supplied(req.exposure) then req.exposure.value else ExposureName(DefaultExposure)
  }

  /** What the validator checks when the new paste is saved. */
  predicate SavesCleanly(req: PasteRequest) {
    && ParseExposure(ExposureNameOf(req)).Some?
    && Supplied(req.title)
    && Supplied(req.content)
  }

  /**
   * `createPaste(data, user)`: a non-empty slug must be free, exactly as
   * given (no trimming, no variants); otherwise the fresh `uuid` is the slug.
   * The save is a put under the slug. The stored record, hash included, is
   * what the service returns.
   */
  function CreatePaste(s: Store, req: PasteRequest, user: Option<UserId>, uuid: string, now: int)
    : (st: Step<Store, Paste, PasteError>)
    ensures st.result.Err? ==> st.state == s
    ensures Supplied(req.slug) && req.slug.value in s ==> st.result == Err(SlugInUse)
    ensures st.result.Ok? <==> !(Supplied(req.slug) && req.slug.value in s) && SavesCleanly(req)
    ensures st.result.Ok? ==>
      var p := st.result.value;
      && st.state == s[p.slug := p]
      && (Supplied(req.slug) ==> p.slug == req.slug.value && p.slug !in s)
      && (!Supplied(req.slug) ==> p.slug == uuid)
      && RequiredPresent(p)
      && p.title == req.title.value && p.content == req.content.value
      && (p.hashedPassword.Some? <==> Supplied(req.password))
      && (Supplied(req.password) ==> Matches(req.password.value, p.hashedPassword.value))
      && (!Supplied(req.exposure) ==> p.exposure == DefaultExposure)
      && p.authorId == user
      && p.views == 0 && p.bookmarks == 0
      && p.expiredAt == DateOrNull(req.expiredAt)
    ensures Keyed(s) ==> Keyed(st.state)
  {
    if Supplied(req.slug) && req.slug.value in s then Step(s, Err(SlugInUse))
    else
      var hashed := if Supplied(req.password) then Some(Hash(req.password.value)) else None;
      var slug := if Supplied(req.slug) then req.slug.value else uuid;
      match ParseExposure(ExposureNameOf(req))
      case None => Step(s, Err(ValidationFailed))
      case Some(e) =>
        if !Supplied(req.title) || !Supplied(req.content) then Step(s, Err(ValidationFailed))
        else
          var p := Paste(slug, req.title.value, req.content.value, hashed, e, 0, 0,
                         DateOrNull(req.expiredAt), user, now);
          Step(s[slug := p], Ok(p))
  }

  // ---------------------------------------------------------------- access

  /** Who may read a paste: the owner of a private one, the holder of the password of a protected one. */
  ghost predicate MayRead(p: Paste, user: Option<UserId>, password: Option<string>) {
    match p.exposure
    case Public => true
    case Unlisted => true
    case Private => IsOwner(user, p.authorId)
    case PasswordProtected => p.hashedPassword.Some? && Matches(password.GetOr(""), p.hashedPassword.value)
  }

  /**
   * `checkAccess(paste, user, password)`: an absent password is compared as
   * `""`, and there is no owner exemption and no separate "password required"
   * outcome.
   */
  function CheckAccess(p: Paste, user: Option<UserId>, password: Option<string>): (c: Check<PasteError>)
    ensures c.Pass? <==> MayRead(p, user, password)
    ensures c == Fail(AccessDenied) <==> p.exposure == Private && !IsOwner(user, p.authorId)
    ensures c == Fail(HashMissing) <==> p.exposure == PasswordProtected && p.hashedPassword.None?
    ensures c == Fail(WrongPassword) <==>
      p.exposure == PasswordProtected && p.hashedPassword.Some?
      && !Matches(password.GetOr(""), p.hashedPassword.value)
  {
    if p.exposure == Private && !IsOwner(user, p.authorId) then Fail(AccessDenied)
    else if p.exposure == PasswordProtected then
      if p.hashedPassword.None? then Fail(HashMissing)
      else if !Matches(password.GetOr(""), p.hashedPassword.value) then Fail(WrongPassword)
      else Pass
    else Pass
  }

  /** No password and the empty password are the same request, and who asks does not matter. */
  lemma AbsentPasswordIsEmpty(p: Paste, u1: Option<UserId>, u2: Option<UserId>)
    requires p.exposure == PasswordProtected
    ensures CheckAccess(p, u1, None) == CheckAccess(p, u2, Some(""))
  {
  }

  /** `expiredAt: null` or `expiredAt > now`: the rows the read query can find. */
  predicate Live(p: Paste, now: int) {
    p.expiredAt.None? || p.expiredAt.value > now
  }

  /**
   * `getPasteById(id, user, password)`: an expired paste is simply not found;
   * after the access check passes views go up by one, and the updated record
   * is returned.
   */
  function GetPasteById(s: Store, id: string, user: Option<UserId>, password: Option<string>, now: int)
    : (st: Step<Store, Paste, PasteError>)
    ensures st.result.Err? ==> st.state == s
    ensures id !in s || !Live(s[id], now) ==> st.result == Err(NotFound)
    ensures id in s && Live(s[id], now) && CheckAccess(s[id], user, password).Fail? ==>
      st.result == Err(CheckAccess(s[id], user, password).error)
    ensures st.result.Ok? <==> id in s && Live(s[id], now) && MayRead(s[id], user, password)
    ensures st.result.Ok? ==>
      && st.result.value == s[id].(views := s[id].views + 1)
      && st.state == s[id := st.result.value]
  {
    if id !in s || !Live(s[id], now) then Step(s, Err(NotFound))
    else
      var p := s[id];
      match CheckAccess(p, user, password)
      case Fail(e) => Step(s, Err(e))
      case Pass =>
        var p' := p.(views := p.views + 1);
        Step(s[id := p'], Ok(p'))
  }

  /** A paste whose expiry is exactly now is already gone (an image at that instant is still served). */
  lemma ExpiringNowIsNotFound(s: Store, id: string, user: Option<UserId>, password: Option<string>, now: int)
    requires id in s && s[id].expiredAt == Some(now)
    ensures GetPasteById(s, id, user, password, now) == Step(s, Err(NotFound))
  {
  }

  // ---------------------------------------------------------------- update

  /**
   * The fields `updatePaste` copies; `None` is a key the request did not send.
   * `expiredAt` is `Some(None)` when the request sends `null`.
   */
  datatype PasteUpdate = PasteUpdate(
    title: Option<string>,
    content: Option<string>,
    expiredAt: Option<Option<int>>)

  /** The paste after applying the copied fields of an update. */
  function ApplyUpdate(p: Paste, u: PasteUpdate): Paste {
    p.(title := u.title.GetOr(p.title),
       content := u.content.GetOr(p.content),
       expiredAt := if u.expiredAt.Some? then DateOrNull(u.expiredAt.value) else p.expiredAt)
  }

  /**
   * `updatePaste(id, data, user)`: only the author may update, and only
   * title, content and expiry change. Expiry is not consulted.
   */
  function UpdatePaste(s: Store, id: string, u: PasteUpdate, user: Option<UserId>)
    : (st: Step<Store, Paste, PasteError>)
    ensures st.result.Err? ==> st.state == s
    ensures id !in s ==> st.result == Err(NotFound)
    ensures id in s && !IsOwner(user, s[id].authorId) ==> st.result == Err(NotOwner)
    ensures st.result.Ok? <==>
      id in s && IsOwner(user, s[id].authorId) && RequiredPresent(ApplyUpdate(s[id], u))
    ensures st.result.Ok? ==>
      && id in s && IsOwner(user, s[id].authorId)
      && var old_, new_ := s[id], st.result.value;
      && st.state == s[id := new_]
      && new_.(title := old_.title, content := old_.content, expiredAt := old_.expiredAt) == old_
      && new_.title == u.title.GetOr(old_.title)
      && new_.content == u.content.GetOr(old_.content)
      && (u.expiredAt.Some? ==> new_.expiredAt == DateOrNull(u.expiredAt.value))
      && RequiredPresent(new_)
  {
    if id !in s then Step(s, Err(NotFound))
    else
      var p := s[id];
      if !IsOwner(user, p.authorId) then Step(s, Err(NotOwner))
      else
        var p' := ApplyUpdate(p, u);
        if !RequiredPresent(p') then Step(s, Err(ValidationFailed))
        else Step(s[id := p'], Ok(p'))
  }

  // ---------------------------------------------------------------- export

  /** One character of the PNG page: `<` and `>` become entities, everything else stays. */
  function EscapeChar(c: char): string {
    if c == '<' then "&lt;" else if c == '>' then "&gt;" else [c]
  }

  /** The per-character reading of the escape. */
  function EscapeEach(s: string): string {
    if s == [] then [] else EscapeChar(s[0]) + EscapeEach(s[1..])
  }

  /** `content.replace(/</g, "&lt;").replace(/>/g, "&gt;")` */
  function Escape(s: string): (r: string)
    ensures '<' !in r && '>' !in r
    ensures forall c :: c != '<' && c != '>' && c !in "&lt;gt" ==> (c in r <==> c in s)
  {
    ReplaceChar(ReplaceChar(s, '<', "&lt;"), '>', "&gt;")
  }

  /** The two global replacements amount to escaping each character on its own. */
  lemma {:induction false} EscapeIsPerCharacter(s: string)
    ensures Escape(s) == EscapeEach(s)
    decreases |s|
  {
    if s != [] {
      var head := if s[0] == '<' then "&lt;" else [s[0]];
      var r1 := ReplaceChar(s, '<', "&lt;");
      assert r1 == head + ReplaceChar(s[1..], '<', "&lt;");
      ReplaceCharAppend(head, ReplaceChar(s[1..], '<', "&lt;"), '>', "&gt;");
      if s[0] == '<' {
        ReplaceAbsentChar("&lt;", '>', "&gt;");
      }
      EscapeIsPerCharacter(s[1..]);
    }
  }

  /** Decoding of the two entities, left to right. */
  function Unescape(s: string): string
    decreases |s|
  {
    if |s| >= 4 && s[..4] == "&lt;" then "<" + Unescape(s[4..])
    else if |s| >= 4 && s[..4] == "&gt;" then ">" + Unescape(s[4..])
    else if s == [] then []
    else [s[0]] + Unescape(s[1..])
  }

  /** Content without `&` survives the escape: decoding the page text gives it back. */
  lemma {:induction false} UnescapeInvertsEscape(s: string)
    requires '&' !in s
    ensures Unescape(Escape(s)) == s
  {
    EscapeIsPerCharacter(s);
    UnescapeEach(s);
  }

  lemma {:induction false} UnescapeEach(s: string)
    requires '&' !in s
    ensures Unescape(EscapeEach(s)) == s
    decreases |s|
  {
    if s != [] {
      var e, rest := EscapeChar(s[0]), EscapeEach(s[1..]);
      var w := e + rest;
      assert EscapeEach(s) == w;
      if s[0] == '<' {
        assert w[..4] == "&lt;" && w[4..] == rest;
      } else if s[0] == '>' {
        assert w[..4] == "&gt;" && w[4..] == rest;
      } else {
        assert w[0] == s[0] && w[1..] == rest;
      }
      UnescapeEach(s[1..]);
    }
  }

  /** `&` is not escaped, so an entity written in the content renders as the character it names. */
  lemma EscapeConflatesEntities()
    ensures Escape("&lt;") == Escape("<")
  {
    EscapeIsPerCharacter("&lt;");
    EscapeIsPerCharacter("<");
    EntityEscapesLikeCharacter();
  }

  lemma EntityEscapesLikeCharacter()
    ensures EscapeEach("&lt;") == EscapeEach("<")
  {
  }

  const PreOpen: string := "<pre style='font-family: monospace; font-size: 16px;'>"
  const PreClose: string := "</pre>"

  /** The HTML page the PNG export renders: the escaped content cannot open or close a tag. */
  function PngPage(content: string): (page: string)
    ensures page == PreOpen + Escape(content) + PreClose
    ensures '<' !in page[|PreOpen|..|page| - |PreClose|] && '>' !in page[|PreOpen|..|page| - |PreClose|]
  {
    var page := PreOpen + Escape(content) + PreClose;
    assert page[|PreOpen|..|page| - |PreClose|] == Escape(content);
    page
  }

  /** What an export produces: the markdown text, the page rendered to PNG, or the text laid out as PDF. */
  datatype Export =
    | Raw(filename: string, content: string)
    | Png(filename: string, page: string)
    | Pdf(filename: string, text: string)

  /**
   * `exportPaste(id, format)`: only existence is checked, never exposure,
   * password or expiry.
   */
  function ExportPaste(s: Store, id: string, format: string): (r: Result<Export, PasteError>)
    ensures id !in s ==> r == Err(NotFound)
    ensures id in s && (format == "raw" || format == "markdown") ==>
      r == Ok(Raw(s[id].slug + ".md", s[id].content))
    ensures id in s && format == "png" ==>
      r.Ok? && r.value.Png? && r.value.filename == s[id].slug + ".png"
      && r.value.page == PreOpen + Escape(s[id].content) + PreClose
    ensures id in s && format == "pdf" ==> r == Ok(Pdf(s[id].slug + ".pdf", s[id].content))
    ensures r.Err? ==> r == Err(NotFound) || r == Err(InvalidFormat)
    ensures r == Err(InvalidFormat) <==> id in s && format !in {"raw", "markdown", "png", "pdf"}
  {
    if id !in s then Err(NotFound)
    else
      var p := s[id];
      if format == "raw" || format == "markdown" then Ok(Raw(p.slug + ".md", p.content))
      else if format == "png" then Ok(Png(p.slug + ".png", PngPage(p.content)))
      else if format == "pdf" then Ok(Pdf(p.slug + ".pdf", p.content))
      else Err(InvalidFormat)
  }

  /** A private paste refused to an anonymous reader is still handed out whole by the raw export. */
  lemma ExportBypassesAccess(s: Store, id: string, password: Option<string>, now: int)
    requires id in s && s[id].exposure == Private && Live(s[id], now)
    ensures GetPasteById(s, id, None, password, now).result == Err(AccessDenied)
    ensures ExportPaste(s, id, "raw") == Ok(Raw(s[id].slug + ".md", s[id].content))
  {
  }
}

=== FILE: share_controller.dfy ===
/**
 * The public share links (controllers/shareController.js): an album by its
 * slug, the global list of loose images, and one image by its slug. The
 * viewer id, the password query parameter and the clock are parameters.
 */
module ShareController {
  import opened Wrappers
  import opened Text
  import opened Common
  import IM = ImageModel
  import IS = ImageService
  import AM = AlbumModel
  import AS = AlbumService

  /** The fields a share link shows of each image: no hash, no author, no album. */
  datatype SharedImage = SharedImage(
    id: string,
    caption: string,
    slug: string,
    imageUrl: string,
    exposure: IM.Exposure,
    createdAt: int)

  function Project(img: IM.Image): (v: SharedImage)
    ensures v.id == img.id && v.slug == img.slug && v.imageUrl == img.imageUrl && v.exposure == img.exposure
  {
    SharedImage(img.id, img.caption, img.slug, img.imageUrl, img.exposure, img.createdAt)
  }

  /** The album a share link shows; the global collection has no id. */
  datatype SharedAlbum = SharedAlbum(
    id: Option<string>,
    name: string,
    slug: string,
    description: string,
    exposure: string,
    images: seq<SharedImage>)

  /** A share response: an error status with its message, or the album (200). */
  datatype AlbumReply = AlbumRefused(status: nat, message: string) | AlbumShared(album: SharedAlbum)

  /** The slug the route was given, `(req.params.slug || "").trim()`. */
  function RouteSlug(param: Option<string>): (slug: string)
    ensures param.None? ==> slug == ""
    ensures param.Some? ==> IsCore(param.value, slug)
    ensures slug == [] || (!IsSpace(slug[0]) && !IsSpace(slug[|slug| - 1]))
  {
    if param.Some? then Trim(param.value) else ""
  }

  /** The slug reserved for the collection of images outside any album. */
  const GlobalSlug: string := "images"

  /** The most loose images the global collection lists. */
  const GlobalLimit: nat := 200

  /** `{ albumId: null, exposure: { $in: ["public", "unlisted"] } }` */
  predicate Loose(img: IM.Image) {
    img.albumId.None? && (img.exposure == IM.Public || img.exposure == IM.Unlisted)
  }

  /**
   * `docs` is the image collection as a query returns it: every row of the
   * table exactly once in some order, as stored.
   */
  predicate Listing(docs: seq<IM.Image>, images: IM.Table) {
    && (forall i :: 0 <= i < |docs| ==> docs[i].id in images && images[docs[i].id] == docs[i])
    && (forall id :: id in images ==> images[id] in docs)
  }

  /** The loose images of `docs`, in their order. */
  function LooseImages(docs: seq<IM.Image>): (r: seq<IM.Image>)
    ensures |r| <= |docs|
    ensures forall i :: 0 <= i < |r| ==> Loose(r[i]) && r[i] in docs
    ensures forall img :: img in docs && Loose(img) ==> img in r
  {
    if docs == [] then []
    else
      var rest := LooseImages(docs[1..]);
      assert forall img :: img in docs[1..] ==> img in docs;
      if Loose(docs[0]) then [docs[0]] + rest else rest
  }


  function ProjectAll(docs: seq<IM.Image>): (r: seq<SharedImage>)
    ensures |r| == |docs|
    ensures forall i :: 0 <= i < |docs| ==> r[i] == Project(docs[i])
  {
    seq(|docs|, i requires 0 <= i < |docs| => Project(docs[i]))
  }

  /**
   * `Album.findOne({ slug }).populate('images')`: each listed id replaced by
   * its image, in the album's order; ids whose image is gone are dropped.
   */
  function Populate(ids: seq<string>, images: IM.Table): (r: seq<IM.Image>)
    ensures |r| <= |ids|
    ensures forall x :: x in r ==> exists id :: id in ids && id in images && x == images[id]
    ensures forall id :: id in ids && id in images ==> images[id] in r
    ensures exists pos: seq<nat> :: PopulatedAt(ids, images, pos, r)
  {
    if ids == [] then
      assert PopulatedAt(ids, images, [], []);
      []
    else
      var rest := Populate(ids[1..], images);
      assert forall id :: id in ids[1..] ==> id in ids;
      var pos :| PopulatedAt(ids[1..], images, pos, rest);
      if ids[0] in images then
        PopulatedKeep(ids, images, pos, rest);
        [images[ids[0]]] + rest
      else
        PopulatedDrop(ids, images, pos, rest);
        rest
  }

  /**
   * `r` is `ids` with the missing images dropped: `r[k]` is the image of
   * `ids[pos[k]]`, the positions increase, and every id whose image exists
   * has its position in `pos`.
   */
  predicate PopulatedAt(ids: seq<string>, images: IM.Table, pos: seq<nat>, r: seq<IM.Image>) {
    && |pos| == |r|
    && (forall k :: 0 <= k < |pos| ==> pos[k] < |ids| && ids[pos[k]] in images && r[k] == images[ids[pos[k]]])
    && (forall k, l :: 0 <= k < l < |pos| ==> pos[k] < pos[l])
    && (forall j {:trigger j in pos} :: 0 <= j < |ids| && ids[j] in images ==> j in pos)
  }

  /** A first id whose image exists leads the tail's result. */
  lemma PopulatedKeep(ids: seq<string>, images: IM.Table, pos: seq<nat>, rest: seq<IM.Image>)
    requires ids != [] && ids[0] in images && PopulatedAt(ids[1..], images, pos, rest)
    ensures PopulatedAt(ids, images, [0] + Shift(pos), [images[ids[0]]] + rest)
  {
    var sh := Shift(pos);
    var q := [0] + sh;
    var r := [images[ids[0]]] + rest;
    forall k | 0 <= k < |q| ensures q[k] < |ids| && ids[q[k]] in images && r[k] == images[ids[q[k]]] {
      if k > 0 {
        assert q[k] == sh[k - 1] == pos[k - 1] + 1;
        assert ids[q[k]] == ids[1..][pos[k - 1]];
        assert r[k] == rest[k - 1];
      }
    }
    forall k, l | 0 <= k < l < |q| ensures q[k] < q[l] {
      assert q[l] == sh[l - 1] >= 1;
      if k > 0 {
        assert q[k] == sh[k - 1];
      }
    }
    forall j | 0 <= j < |ids| && ids[j] in images ensures j in q {
      if j > 0 {
        assert ids[1..][j - 1] == ids[j];
        assert j - 1 in pos;
        var m :| 0 <= m < |pos| && pos[m] == j - 1;
        assert q[m + 1] == j;
      }
    }
  }

  /** A first id whose image is gone is dropped. */
  lemma PopulatedDrop(ids: seq<string>, images: IM.Table, pos: seq<nat>, rest: seq<IM.Image>)
    requires ids != [] && ids[0] !in images && PopulatedAt(ids[1..], images, pos, rest)
    ensures PopulatedAt(ids, images, Shift(pos), rest)
  {
    var q := Shift(pos);
    forall k | 0 <= k < |q| ensures q[k] < |ids| && ids[q[k]] in images && rest[k] == images[ids[q[k]]] {
      assert ids[q[k]] == ids[1..][pos[k]];
    }
    forall j | 0 <= j < |ids| && ids[j] in images ensures j in q {
      assert ids[1..][j - 1] == ids[j];
      assert j - 1 in pos;
      var m :| 0 <= m < |pos| && pos[m] == j - 1;
      assert q[m] == j;
    }
  }

  /** Every position moved one place along. */
  function Shift(pos: seq<nat>): (r: seq<nat>)
    ensures |r| == |pos|
    ensures forall k :: 0 <= k < |pos| ==> r[k] == pos[k] + 1
  {
    seq(|pos|, k requires 0 <= k < |pos| => pos[k] + 1)
  }

  /**
   * `shareAlbum`: a blank slug is 400; the reserved slug `images` lists up
   * to 200 loose images of `docs` (the images table sorted newest first);
   * an unknown slug is 404; a private album is 403 to everyone but its
   * author; otherwise the album with its images, whatever their exposure.
   */
  function ShareAlbum(albums: AM.Table, images: IM.Table, docs: seq<IM.Image>, param: Option<string>,
                      viewer: Option<UserId>)
    : (r: AlbumReply)
    requires AM.UniqueSlugs(albums) && Listing(docs, images)
    ensures RouteSlug(param) == "" <==> r == AlbumRefused(400, "Missing album slug")
    ensures RouteSlug(param) == GlobalSlug ==>
      && r.AlbumShared?
      && r.album.id.None? && r.album.slug == GlobalSlug && r.album.exposure == "public"
      && r.album.images == ProjectAll(Take(LooseImages(docs), GlobalLimit))
    ensures r == AlbumRefused(404, "Album not found") <==>
      RouteSlug(param) != "" && RouteSlug(param) != GlobalSlug && RouteSlug(param) !in AM.SlugsOf(albums)
    ensures r.AlbumRefused? && r.status == 403 ==> r.message == "Album is private"
    ensures RouteSlug(param) != "" && RouteSlug(param) != GlobalSlug && RouteSlug(param) in AM.SlugsOf(albums) ==>
      (r.AlbumShared? <==> AS.CanAccessAlbum(albums[AM.FindBySlug(albums, RouteSlug(param)).value], viewer).Pass?)
    ensures RouteSlug(param) != GlobalSlug && r.AlbumShared? ==>
      exists id :: id in albums && albums[id].slug == RouteSlug(param)
        && AS.CanAccessAlbum(albums[id], viewer).Pass?
        && r.album == SharedAlbum(Some(id), albums[id].name, albums[id].slug, albums[id].description,
                                  AM.ExposureName(albums[id].exposure),
                                  ProjectAll(Populate(albums[id].images, images)))
  {
    var slug := RouteSlug(param);
    if slug == "" then AlbumRefused(400, "Missing album slug")
    else if slug == GlobalSlug then
      AlbumShared(SharedAlbum(None, "Images", GlobalSlug, "Global images", "public",
                              ProjectAll(Take(LooseImages(docs), GlobalLimit))))
    else
      match AM.FindBySlug(albums, slug)
      case None => AlbumRefused(404, "Album not found")
      case Some(id) =>
        var a := albums[id];
        if a.exposure == AM.Private && !IsOwner(viewer, a.authorId) then AlbumRefused(403, "Album is private")
        else
          AlbumShared(SharedAlbum(Some(id), a.name, a.slug, a.description, AM.ExposureName(a.exposure),
                                  ProjectAll(Populate(a.images, images))))
  }

  /**
   * The share link refuses an album exactly when the album service would
   * refuse to show it, and shares it exactly when the service would show it.
   */
  lemma ShareAlbumAgreesWithService(albums: AM.Table, images: IM.Table, docs: seq<IM.Image>, slug: string,
                                    viewer: Option<UserId>)
    requires AM.UniqueSlugs(albums) && Listing(docs, images) && slug in AM.SlugsOf(albums)
    requires slug != "" && slug != GlobalSlug && Trim(slug) == slug
    ensures var id := AM.FindBySlug(albums, slug).value;
      (ShareAlbum(albums, images, docs, Some(slug), viewer) == AlbumRefused(403, "Album is private")
       <==> AS.CanAccessAlbum(albums[id], viewer).Fail?)
    ensures var id := AM.FindBySlug(albums, slug).value;
      (ShareAlbum(albums, images, docs, Some(slug), viewer).AlbumShared?
       <==> AS.CanAccessAlbum(albums[id], viewer).Pass?)
  {
  }

  /** An album whose slug is `images` can never be shared: the global collection answers instead. */
  lemma ReservedSlugShadowsAlbum(albums: AM.Table, images: IM.Table, docs: seq<IM.Image>, param: Option<string>,
                                 viewer: Option<UserId>)
    requires AM.UniqueSlugs(albums) && Listing(docs, images) && GlobalSlug in AM.SlugsOf(albums)
    requires RouteSlug(param) == GlobalSlug
    ensures ShareAlbum(albums, images, docs, param, viewer).album.id.None?
  {
  }

  /**
   * A shared album lists its private and password-protected images too,
   * with their URLs: the image exposure is not consulted on this path.
   */
  lemma SharedAlbumShowsHiddenImages(albums: AM.Table, images: IM.Table, docs: seq<IM.Image>, slug: string,
                                     imageId: string)
    requires AM.UniqueSlugs(albums) && Listing(docs, images) && slug in AM.SlugsOf(albums)
    requires slug != "" && slug != GlobalSlug && Trim(slug) == slug
    requires var a := albums[AM.FindBySlug(albums, slug).value];
      a.exposure == AM.Public && imageId in a.images && imageId in images
    ensures var r := ShareAlbum(albums, images, docs, Some(slug), None);
      r.AlbumShared? && Project(images[imageId]) in r.album.images
  {
    var a := albums[AM.FindBySlug(albums, slug).value];
    var p := Populate(a.images, images);
    var k :| 0 <= k < |p| && p[k] == images[imageId];
    assert ProjectAll(p)[k] == Project(images[imageId]);
  }

  /**
   * The global collection holds at most 200 images, each a loose image of
   * the table; when there are no more than 200 loose images, all of them.
   */
  lemma GlobalCollectionIsLooseAndBounded(albums: AM.Table, images: IM.Table, docs: seq<IM.Image>,
                                          param: Option<string>, viewer: Option<UserId>)
    requires AM.UniqueSlugs(albums) && Listing(docs, images) && RouteSlug(param) == GlobalSlug
    ensures var r := ShareAlbum(albums, images, docs, param, viewer);
      && |r.album.images| <= GlobalLimit
      && (forall v :: v in r.album.images ==> v.exposure != IM.Private && v.exposure != IM.PasswordProtected)
      && (forall v :: v in r.album.images ==> exists id :: id in images && Loose(images[id]) && v == Project(images[id]))
      && (|LooseImages(docs)| <= GlobalLimit ==>
            forall id :: id in images && Loose(images[id]) ==> Project(images[id]) in r.album.images)
  {
    var l := Take(LooseImages(docs), GlobalLimit);
    forall v | v in ProjectAll(l)
      ensures v.exposure != IM.Private && v.exposure != IM.PasswordProtected
      ensures exists id :: id in images && Loose(images[id]) && v == Project(images[id])
    {
      var i :| 0 <= i < |l| && ProjectAll(l)[i] == v;
      var x := LooseImages(docs)[i];
      assert l[i] == x && Loose(x) && x in docs;
      var j :| 0 <= j < |docs| && docs[j] == x;
      assert x.id in images && images[x.id] == x;
    }
    if |LooseImages(docs)| <= GlobalLimit {
      forall id | id in images && Loose(images[id]) ensures Project(images[id]) in ProjectAll(l) {
        var i :| 0 <= i < |l| && l[i] == images[id];
        assert ProjectAll(l)[i] == Project(images[id]);
      }
    }
  }

  // ---------------------------------------------------------------- one image

  /** A share response for one image: an error status with its message, or the projection (200). */
  datatype ImageReply = ImageRefused(status: nat, message: string) | ImageShared(image: IS.ImageView)

  /** The words the error handler looks for, after lower-casing the message. */
  const PasswordWord: string := "password"
  const PermissionWord: string := "permission"
  const RightWord: string := "quyền"
  const NoRightPhrase: string := "không có quyền"

  /**
   * The catch block: a message mentioning a password is 401, one mentioning
   * permission (in English or Vietnamese) is 403, both with the message
   * itself; anything else becomes a 500 with a fixed message.
   */
  function ErrorReply(msg: string): (r: ImageReply)
    ensures r.ImageRefused?
    ensures r.status == 401 <==> Contains(Lower(msg), PasswordWord)
    ensures r.status == 403 <==>
      !Contains(Lower(msg), PasswordWord)
      && (Contains(Lower(msg), RightWord) || Contains(Lower(msg), PermissionWord))
    ensures r.status == 401 || r.status == 403 || r == ImageRefused(500, "Server error")
    ensures r.status != 500 ==> r.message == msg
  {
    var l := Lower(msg);
    if Contains(l, PasswordWord) then ImageRefused(401, msg)
    else if Contains(l, RightWord) || Contains(l, PermissionWord) || Contains(l, NoRightPhrase) then
      if Contains(l, NoRightPhrase) then
        assert NoRightPhrase == "không có " + RightWord + "";
        ContainsInner(l, "không có ", RightWord, "");
        ImageRefused(403, msg)
      else ImageRefused(403, msg)
    else ImageRefused(500, "Server error")
  }

  /** The slug lookup under the unique index, after the route slug is trimmed. */
  function FindImage(images: IM.Table, slug: string): (r: Option<string>)
    requires IM.UniqueSlugs(images)
    ensures r.Some? <==> slug in IM.SlugsOf(images)
    ensures r.Some? ==> r.value in images && images[r.value].slug == slug
  {
    IM.FindBySlug(images, slug)
  }

  /**
   * `shareImage`: a blank slug is 400 and an unknown one 404; otherwise the
   * service's read path runs (expiry, access, view count) with the viewer
   * and `password || null`, and its error is classified by message.
   */
  function ShareImage(images: IM.Table, param: Option<string>, password: Option<string>, viewer: Option<UserId>,
                      now: int)
    : (s: (IM.Table, ImageReply))
    requires IM.WellKeyed(images) && IM.UniqueSlugs(images)
    ensures RouteSlug(param) == "" ==> s == (images, ImageRefused(400, "Missing image slug"))
    ensures RouteSlug(param) != "" && RouteSlug(param) !in IM.SlugsOf(images) ==>
      s == (images, ImageRefused(404, "Image not found"))
    ensures RouteSlug(param) != "" && RouteSlug(param) in IM.SlugsOf(images) ==>
      var img := images[FindImage(images, RouteSlug(param)).value];
      var step := IS.ReadFound(images, img, viewer, if Supplied(password) then password else None, now);
      && s.0 == step.state
      && s.1 == (if step.result.Ok? then ImageShared(step.result.value) else ErrorReply(step.result.error.Message()))
  {
    var slug := RouteSlug(param);
    if slug == "" then (images, ImageRefused(400, "Missing image slug"))
    else
      match FindImage(images, slug)
      case None => (images, ImageRefused(404, "Image not found"))
      case Some(id) =>
        var step := IS.ReadFound(images, images[id], viewer, if Supplied(password) then password else None, now);
        (step.state, if step.result.Ok? then ImageShared(step.result.value) else ErrorReply(step.result.error.Message()))
  }

  /** The image the share link shows is exactly the one the viewer may read, seen as the viewer. */
  lemma ShareImageShowsReadable(images: IM.Table, slug: string, password: Option<string>, viewer: Option<UserId>,
                                now: int)
    requires IM.WellKeyed(images) && IM.UniqueSlugs(images)
    requires slug != "" && Trim(slug) == slug && slug in IM.SlugsOf(images)
    ensures var img := images[FindImage(images, slug).value];
      (ShareImage(images, Some(slug), password, viewer, now).1.ImageShared?
       <==> !IS.IsExpired(img, now) && IS.MayRead(img, viewer, password))
  {
  }

  /** A password-protected image without a hash is reported as 401. */
  lemma NoPasswordSetIs401()
    ensures ErrorReply(IS.ImageError.NoPasswordSet.Message()).status == 401
  {
    var x, z := "This image does not have a ", " set";
    assert IS.ImageError.NoPasswordSet.Message() == x + PasswordWord + z;
    LowerAppend(x + PasswordWord, z);
    LowerAppend(x, PasswordWord);
    assert Lower(PasswordWord) == PasswordWord;
    ContainsSpliced(Lower(x), PasswordWord, Lower(z));
  }

  /** A missing password is reported as 401. */
  lemma PasswordRequiredIs401()
    ensures ErrorReply(IS.ImageError.PasswordRequired.Message()).status == 401
  {
    var y, z := "Password", " required";
    assert IS.ImageError.PasswordRequired.Message() == y + z;
    LowerAppend(y, z);
    assert Lower(y) == PasswordWord;
    ContainsSpliced([], PasswordWord, Lower(z));
    assert [] + PasswordWord + Lower(z) == PasswordWord + Lower(z);
  }

  /** A wrong password is reported as 401. */
  lemma IncorrectPasswordIs401()
    ensures ErrorReply(IS.ImageError.IncorrectPassword.Message()).status == 401
  {
    var x := "Incorrect ";
    assert IS.ImageError.IncorrectPassword.Message() == x + PasswordWord + [];
    LowerAppend(x + PasswordWord, []);
    LowerAppend(x, PasswordWord);
    assert Lower(PasswordWord) == PasswordWord;
    ContainsSpliced(Lower(x), PasswordWord, []);
  }

  /** The refusal of a private image, cut just before its only `w`. */
  lemma ViewDeniedPieces(m: string, p1: string, p2: string, p3: string, p4: string)
    requires m == IS.ImageError.ViewDenied.Message()
    requires p1 == "You do not " && p2 == "have permiss" && p3 == "ion to vie" && p4 == "w this image"
    ensures m == p1 + p2 + p3 + p4
  {
  }

  lemma NoLowerW(p: string)
    requires p == "You do not " || p == "have permiss" || p == "ion to vie"
    ensures 'w' !in Lower(p)
  {
  }

  lemma LowerWThen(p: string)
    requires p == "w this image"
    ensures |p| >= 2 && Lower(p)[0] == 'w' && Lower(p)[1] == ' ' && 'w' !in Lower(p)[1..]
  {
  }

  /** The `w` of "password" is followed by an `o`. */
  lemma PasswordAnchor(sub: string)
    requires sub == PasswordWord
    ensures |sub| >= 6 && sub[4] == 'w' && sub[5] == 'o'
  {
  }

  /** Four pieces whose only `w` starts the last one, before a space, cannot hold `sub` at its `w`. */
  lemma AbsentAcrossPieces(p1: string, p2: string, p3: string, p4: string, sub: string)
    requires 'w' !in Lower(p1) && 'w' !in Lower(p2) && 'w' !in Lower(p3)
    requires |p4| >= 2 && Lower(p4)[0] == 'w' && Lower(p4)[1] == ' ' && 'w' !in Lower(p4)[1..]
    requires |sub| >= 6 && sub[4] == 'w' && sub[5] == 'o'
    ensures !Contains(Lower(p1 + p2 + p3 + p4), sub)
  {
    LowerAppend(p1 + p2 + p3, p4);
    LowerAppend(p1 + p2, p3);
    LowerAppend(p1, p2);
    var a := Lower(p1) + Lower(p2) + Lower(p3);
    assert 'w' !in a;
    AnchoredAbsence(a, Lower(p4), sub, 4);
  }

  /** The refusal of a private image does not mention a password. */
  lemma ViewDeniedLacksPassword()
    ensures !Contains(Lower(IS.ImageError.ViewDenied.Message()), PasswordWord)
  {
    var m, p1, p2, p3, p4 := IS.ImageError.ViewDenied.Message(), "You do not ", "have permiss", "ion to vie", "w this image";
    ViewDeniedPieces(m, p1, p2, p3, p4);
    NoLowerW(p1);
    NoLowerW(p2);
    NoLowerW(p3);
    LowerWThen(p4);
    PasswordAnchor(PasswordWord);
    AbsentAcrossPieces(p1, p2, p3, p4, PasswordWord);
  }

  /** The refusal of a private image mentions permission. */
  lemma ViewDeniedMentionsPermission()
    ensures Contains(Lower(IS.ImageError.ViewDenied.Message()), PermissionWord)
  {
    var x, y, z := "You do not have ", PermissionWord, " to view this image";
    assert x + y + z == IS.ImageError.ViewDenied.Message();
    LowerAppend(x + y, z);
    LowerAppend(x, y);
    assert Lower(y) == y;
    ContainsSpliced(Lower(x), y, Lower(z));
  }

  /** A private image refused to the viewer is 403. */
  lemma ViewDeniedIs403()
    ensures ErrorReply(IS.ImageError.ViewDenied.Message()).status == 403
  {
    ViewDeniedLacksPassword();
    ViewDeniedMentionsPermission();
  }

  /** An expired image is reported as a server error, not as missing or gone. */
  lemma ExpiredIs500()
    ensures ErrorReply(IS.ImageError.Expired.Message()) == ImageRefused(500, "Server error")
  {
    var l := Lower(IS.ImageError.Expired.Message());
    assert 'w' !in l && 'q' !in l && 'n' !in l;
    MissingCharNotContained(l, PasswordWord, 'w');
    MissingCharNotContained(l, RightWord, 'q');
    MissingCharNotContained(l, PermissionWord, 'n');
  }

  /**
   * Every failure of a found image gets its status: expiry 500, the password
   * failures 401, a private image of someone else 403. The table changes
   * only by the deletion of an expired image.
   */
  lemma ShareImageFailuresClassified(images: IM.Table, slug: string, password: Option<string>,
                                     viewer: Option<UserId>, now: int)
    requires IM.WellKeyed(images) && IM.UniqueSlugs(images)
    requires slug != "" && Trim(slug) == slug && slug in IM.SlugsOf(images)
    ensures var img := images[FindImage(images, slug).value];
      var s := ShareImage(images, Some(slug), password, viewer, now);
      && (IS.IsExpired(img, now) ==> s == (images - {img.id}, ImageRefused(500, "Server error")))
      && (!IS.IsExpired(img, now) && s.1.ImageRefused? ==>
            && s.0 == images
            && s.1.status == (if img.exposure == IM.Private then 403 else 401))
  {
    NoPasswordSetIs401();
    PasswordRequiredIs401();
    IncorrectPasswordIs401();
    ViewDeniedIs403();
    ExpiredIs500();
  }
}

=== FILE: slugs.dfy ===
/**
 * Slug allocation: the numbered-variant searches of the image and album
 * services and the random-token retry loop.
 *
 * `taken` is the set of slugs the table holds when the search runs; each
 * `findOne({ slug })` of the source is a membership test on it. Random tokens
 * (`nanoid(n)`) come from a caller-supplied stream, read in order.
 */
module Slugs {
  import opened Text

  /** `nanoid(10)`, the image token length. */
  const ImageTokenLength: nat := 10
  /** `nanoid(12)`, the album token length. */
  const AlbumTokenLength: nat := 12
  /** The image search gives up once its counter passes this value. */
  const SuffixCap: nat := 500

  /** `${base}-${k}` */
  function Suffixed(base: string, k: nat): string {
    base + "-" + NatToString(k)
  }

  /** The k-th slug a search tries: the base itself, then `base-1`, `base-2`, ... */
  function Candidate(base: string, k: nat): string {
    if k == 0 then base else Suffixed(base, k)
  }

  /** Different counters give different candidates. */
  lemma CandidateInjective(base: string, j: nat, k: nat)
    ensures Candidate(base, j) == Candidate(base, k) ==> j == k
  {
    if Candidate(base, j) == Candidate(base, k) && j != 0 && k != 0 {
      var n := |base| + 1;
      assert NatToString(j) == Suffixed(base, j)[n..];
      assert NatToString(k) == Suffixed(base, k)[n..];
      NatToStringInjective(j, k);
    }
  }

  /** Every candidate before the k-th is already held. */
  predicate TakenBelow(taken: set<string>, base: string, k: nat) {
    forall j :: 0 <= j < k ==> Candidate(base, j) in taken
  }

  /** The first k candidates, as a set. */
  function CandidatesBelow(base: string, k: nat): (c: set<string>)
    ensures |c| == k
    ensures forall j :: 0 <= j < k ==> Candidate(base, j) in c
    ensures forall s :: s in c ==> exists j :: 0 <= j < k && s == Candidate(base, j)
  {
    if k == 0 then {}
    else
      var prev := CandidatesBelow(base, k - 1);
      assert Candidate(base, k - 1) !in prev by {
        forall j | 0 <= j < k - 1
          ensures Candidate(base, j) != Candidate(base, k - 1)
        {
          CandidateInjective(base, j, k - 1);
        }
      }
      prev + {Candidate(base, k - 1)}
  }

  /**
   * The preferred-slug search of `generateUniqueSlug` / `createImage`: try
   * `base`, `base-1`, ... and stop at the first free one, but after `base-500`
   * give up and return `base-501` without checking it.
   */
  method CappedSuffixSearch(taken: set<string>, base: string) returns (slug: string)
    ensures exists k ::
      && 0 <= k <= SuffixCap + 1
      && slug == Candidate(base, k)
      && TakenBelow(taken, base, k)
      && (slug in taken ==> k == SuffixCap + 1)
    ensures base !in taken ==> slug == base
    ensures slug in taken <==> TakenBelow(taken, base, SuffixCap + 2)
  {
    var counter: nat := 0;
    slug := base;
    while slug in taken
      invariant counter <= SuffixCap
      invariant slug == Candidate(base, counter) && TakenBelow(taken, base, counter)
      decreases SuffixCap - counter
    {
      assert TakenBelow(taken, base, counter + 1);
      counter := counter + 1;
      slug := Suffixed(base, counter);
      if counter > SuffixCap {
        break;
      }
    }
    if slug in taken {
      assert TakenBelow(taken, base, SuffixCap + 2);
    } else {
      assert Candidate(base, counter) !in taken;
    }
  }

  /** `${base}-${++counter || ""}`.replace(/-$/, ""): drops one trailing dash. */
  function StripTrailingDash(s: string): string {
    if |s| > 0 && s[|s| - 1] == '-' then s[..|s| - 1] else s
  }

  /** The album candidate expression always equals `base-k`: it ends in a digit, so nothing is stripped. */
  lemma AlbumCandidateIsSuffixed(base: string, k: nat)
    requires k >= 1
    ensures StripTrailingDash(base + "-" + NatToString(k)) == Suffixed(base, k)
  {
    var s := base + "-" + NatToString(k);
    assert s[|s| - 1] == NatToString(k)[|NatToString(k)| - 1];
  }

  /** A finite table can hold only as many candidates as it has rows. */
  lemma TakenBelowIsBounded(taken: set<string>, base: string, k: nat)
    requires TakenBelow(taken, base, k)
    ensures k <= |taken|
  {
    var c := CandidatesBelow(base, k);
    assert c <= taken;
    SubsetIsSmaller(c, taken);
  }

  lemma {:induction false} SubsetIsSmaller<T>(a: set<T>, b: set<T>)
    requires a <= b
    ensures |a| <= |b|
    decreases |a|
  {
    if a != {} {
      var x :| x in a;
      SubsetIsSmaller(a - {x}, b - {x});
    }
  }

  /**
   * The create-time search of `createAlbum`: `base`, `base-1`, `base-2`, ...
   * with no cap. It ends because the table is finite: only |taken| candidates
   * can be held.
   */
  method UncappedSuffixSearch(taken: set<string>, base: string) returns (slug: string)
    ensures slug !in taken
    ensures exists k :: 0 <= k <= |taken| && slug == Candidate(base, k) && TakenBelow(taken, base, k)
    ensures base !in taken ==> slug == base
  {
    var counter: nat := 0;
    slug := base;
    while slug in taken
      invariant slug == Candidate(base, counter)
      invariant TakenBelow(taken, base, counter)
      invariant counter <= |taken|
      decreases |taken| - counter
    {
      assert TakenBelow(taken, base, counter + 1);
      TakenBelowIsBounded(taken, base, counter + 1);
      counter := counter + 1;
      AlbumCandidateIsSuffixed(base, counter);
      slug := StripTrailingDash(base + "-" + NatToString(counter));
    }
  }

  /** Every token of the stream has length `len`, and one of them is free. */
  predicate TokenStream(taken: set<string>, tokens: seq<string>, len: nat) {
    && (forall i :: 0 <= i < |tokens| ==> |tokens[i]| == len)
    && (exists i :: 0 <= i < |tokens| && tokens[i] !in taken)
  }

  /**
   * `slug = nanoid(n); while (findOne({ slug })) slug = nanoid(n);`:
   * the first token of the stream that no row holds.
   */
  method FreshToken(taken: set<string>, tokens: seq<string>, len: nat) returns (slug: string)
    requires TokenStream(taken, tokens, len)
    ensures |slug| == len && slug !in taken
    ensures exists k :: 0 <= k < |tokens| && slug == tokens[k] && forall j :: 0 <= j < k ==> tokens[j] in taken
  {
    var i := 0;
    slug := tokens[0];
    while slug in taken
      invariant 0 <= i < |tokens| && slug == tokens[i]
      invariant forall j :: 0 <= j < i ==> tokens[j] in taken
      invariant exists k :: i <= k < |tokens| && tokens[k] !in taken
      decreases |tokens| - i
    {
      i := i + 1;
      slug := tokens[i];
    }
  }
}

=== FILE: text.dfy ===
/**
 * The string operations the services rely on: JavaScript's `trim`,
 * decimal rendering of counters and timestamps, ASCII lower-casing,
 * substring tests and single-character replacement.
 */
module Text {

  /** The characters `String.prototype.trim` removes: white space and line terminators. */
  predicate IsSpace(c: char) {
    || c == ' ' || c == '\t' || c == '\n' || c == '\r'
    || c == '\U{000B}' || c == '\U{000C}' || c == '\U{00A0}' || c == '\U{1680}'
    || ('\U{2000}' <= c <= '\U{200A}')
    || c == '\U{2028}' || c == '\U{2029}' || c == '\U{202F}' || c == '\U{205F}'
    || c == '\U{3000}' || c == '\U{FEFF}'
  }

  /** How many white-space characters `s` starts with. */
  function LeadingSpace(s: string): (n: nat)
    ensures n <= |s|
    ensures forall i :: 0 <= i < n ==> IsSpace(s[i])
    ensures n < |s| ==> !IsSpace(s[n])
  {
    if s == [] || !IsSpace(s[0]) then 0 else 1 + LeadingSpace(s[1..])
  }

  /** How many white-space characters `s` ends with. */
  function TrailingSpace(s: string): (n: nat)
    ensures n <= |s|
    ensures forall i :: |s| - n <= i < |s| ==> IsSpace(s[i])
    ensures n < |s| ==> !IsSpace(s[|s| - n - 1])
  {
    if s == [] || !IsSpace(s[|s| - 1]) then 0 else 1 + TrailingSpace(s[..|s| - 1])
  }

  /** `r` is the part of `s` starting at `lo`, and everything around it is white space. */
  predicate CoreAt(s: string, r: string, lo: nat) {
    && lo + |r| <= |s|
    && r == s[lo..lo + |r|]
    && (forall i :: 0 <= i < lo ==> IsSpace(s[i]))
    && (forall i :: lo + |r| <= i < |s| ==> IsSpace(s[i]))
  }

  /** True when `r` is `s` with some white space removed from both ends only. */
  ghost predicate IsCore(s: string, r: string) {
    exists lo: nat :: CoreAt(s, r, lo)
  }

  /** `String.prototype.trim`: the white-space-free core of `s`. */
  function Trim(s: string): (r: string)
    ensures IsCore(s, r)
    ensures r == [] || (!IsSpace(r[0]) && !IsSpace(r[|r| - 1]))
  {
    var lo := LeadingSpace(s);
    if lo == |s| then
      assert CoreAt(s, [], lo);
      []
    else
      var hi := |s| - TrailingSpace(s);
      assert lo < hi;
      assert CoreAt(s, s[lo..hi], lo);
      s[lo..hi]
  }

  /** A JavaScript string is "blank" when its trimmed form is empty (falsy). */
  predicate IsBlank(s: string) {
    Trim(s) == []
  }

  lemma BlankIffAllSpace(s: string)
    ensures IsBlank(s) <==> forall i :: 0 <= i < |s| ==> IsSpace(s[i])
  {
    if !IsBlank(s) {
      var lo: nat :| CoreAt(s, Trim(s), lo);
      assert !IsSpace(s[lo]);
    }
  }

  /** Trimming a trimmed string changes nothing. */
  lemma TrimIdempotent(s: string)
    ensures Trim(Trim(s)) == Trim(s)
  {
    if Trim(s) != [] {
      TrimUnpadded(Trim(s));
    }
  }

  /** A string with no white space is its own trimmed form. */
  lemma TrimWithoutSpace(s: string)
    requires forall i :: 0 <= i < |s| ==> !IsSpace(s[i])
    ensures Trim(s) == s
  {
  }

  /** Only the ends matter: a string that starts and ends with other characters is its own trimmed form. */
  lemma TrimUnpadded(s: string)
    requires s != [] && !IsSpace(s[0]) && !IsSpace(s[|s| - 1])
    ensures Trim(s) == s
  {
    assert LeadingSpace(s) == 0;
    assert TrailingSpace(s) == 0;
  }

  predicate IsDigit(c: char) {
    '0' <= c <= '9'
  }

  function DigitChar(d: nat): (c: char)
    requires d < 10
    ensures IsDigit(c)
  {
    "0123456789"[d]
  }

  /** Decimal rendering of a natural number, as JavaScript's template literals print it. */
  function NatToString(n: nat): (s: string)
    ensures |s| > 0
    ensures forall i :: 0 <= i < |s| ==> IsDigit(s[i])
    ensures n < 10 <==> |s| == 1
    decreases n
  {
    if n < 10 then [DigitChar(n)] else NatToString(n / 10) + [DigitChar(n % 10)]
  }

  /** Distinct numbers print differently, so numbered variants of one slug never collide. */
  lemma {:induction false} NatToStringInjective(a: nat, b: nat)
    ensures NatToString(a) == NatToString(b) ==> a == b
    decreases a
  {
    if NatToString(a) == NatToString(b) && a >= 10 && b >= 10 {
      var sa, sb := NatToString(a), NatToString(b);
      assert sa[|sa| - 1] == sb[|sb| - 1];
      assert DigitChar(a % 10) == DigitChar(b % 10);
      assert sa[..|sa| - 1] == NatToString(a / 10);
      assert sb[..|sb| - 1] == NatToString(b / 10);
      NatToStringInjective(a / 10, b / 10);
    }
  }

  function LowerChar(c: char): char {
    if 'A' <= c <= 'Z' then (c as int + 32) as char else c
  }

  /** `toLowerCase` restricted to ASCII letters. */
  function Lower(s: string): string {
    seq(|s|, i requires 0 <= i < |s| => LowerChar(s[i]))
  }

  /** `sub` occurs in `s` at position `i`. */
  predicate OccursAt(s: string, sub: string, i: nat) {
    i + |sub| <= |s| && s[i..i + |sub|] == sub
  }

  /** `s.includes(sub)`. */
  predicate Contains(s: string, sub: string) {
    exists i: nat | i <= |s| :: OccursAt(s, sub, i)
  }

  /** Lower-casing works character by character, so it distributes over concatenation. */
  lemma LowerAppend(a: string, b: string)
    ensures Lower(a + b) == Lower(a) + Lower(b)
  {
  }

  /** A string contains whatever is spliced into it. */
  lemma ContainsSpliced(a: string, sub: string, b: string)
    ensures Contains(a + sub + b, sub)
  {
    assert (a + sub + b)[|a|..|a| + |sub|] == sub;
    assert OccursAt(a + sub + b, sub, |a|);
  }

  /** A string lacking one of the characters of `sub` cannot contain `sub`. */
  lemma MissingCharNotContained(s: string, sub: string, c: char)
    requires c in sub && c !in s
    ensures !Contains(s, sub)
  {
    var j :| 0 <= j < |sub| && sub[j] == c;
    forall i: nat | i <= |s| ensures !OccursAt(s, sub, i) {
      if i + |sub| <= |s| {
        assert s[i..i + |sub|][j] == s[i + j];
      }
    }
  }

  /**
   * `sub` cannot occur across `a + b` when its `k`-th character is missing
   * from `a`, and the only place `b` has it is its first character, which
   * is followed by something other than `sub[k + 1]`.
   */
  lemma AnchoredAbsence(a: string, b: string, sub: string, k: nat)
    requires k + 1 < |sub| && |b| >= 2
    requires sub[k] !in a && b[0] == sub[k] && b[1] != sub[k + 1] && sub[k] !in b[1..]
    ensures !Contains(a + b, sub)
  {
    var s := a + b;
    forall i: nat | i <= |s| ensures !OccursAt(s, sub, i) {
      if i + |sub| <= |s| {
        assert s[i..i + |sub|][k] == s[i + k];
        if i + k < |a| {
          assert s[i + k] == a[i + k];
        } else if i + k == |a| {
          assert s[i..i + |sub|][k + 1] == s[i + k + 1] == b[1];
        } else {
          assert s[i + k] == b[1..][i + k - |a| - 1];
        }
      }
    }
  }

  /** Whatever contains `a + sub + b` contains `sub`. */
  lemma ContainsInner(s: string, a: string, sub: string, b: string)
    requires Contains(s, a + sub + b)
    ensures Contains(s, sub)
  {
    var i: nat :| i <= |s| && OccursAt(s, a + sub + b, i);
    var w := a + sub + b;
    assert s[i..i + |w|] == w;
    forall k | 0 <= k < |sub| ensures s[i + |a| + k] == sub[k] {
      assert s[i..i + |w|][|a| + k] == w[|a| + k];
    }
    assert s[i + |a|..i + |a| + |sub|] == sub;
    assert OccursAt(s, sub, i + |a|);
  }

  /** `s.startsWith(prefix)`. */
  predicate StartsWith(s: string, prefix: string) {
    |prefix| <= |s| && s[..|prefix|] == prefix
  }

  /** `s.replace(/c/g, rep)` for a one-character pattern. */
  function ReplaceChar(s: string, c: char, rep: string): (r: string)
    ensures c !in rep ==> c !in r
    ensures forall d :: d != c && d !in rep ==> (d in r <==> d in s)
  {
    if s == [] then []
    else (if s[0] == c then rep else [s[0]]) + ReplaceChar(s[1..], c, rep)
  }

  /** Replacing in a concatenation is replacing in each part. */
  lemma {:induction false} ReplaceCharAppend(a: string, b: string, c: char, rep: string)
    ensures ReplaceChar(a + b, c, rep) == ReplaceChar(a, c, rep) + ReplaceChar(b, c, rep)
    decreases |a|
  {
    if a != [] {
      assert (a + b)[1..] == a[1..] + b;
      ReplaceCharAppend(a[1..], b, c, rep);
    } else {
      assert a + b == b;
    }
  }

  /** Replacing a character that does not occur changes nothing. */
  lemma {:induction false} ReplaceAbsentChar(s: string, c: char, rep: string)
    requires c !in s
    ensures ReplaceChar(s, c, rep) == s
    decreases |s|
  {
    if s != [] {
      ReplaceAbsentChar(s[1..], c, rep);
    }
  }

  /** `s.slice(0, n)` on a string and `.limit(n)` on a query: at most the first `n` entries. */
  function Take<T>(s: seq<T>, n: nat): (r: seq<T>)
    ensures |r| == if |s| <= n then |s| else n
    ensures r == s[..|r|]
  {
    if |s| <= n then s else s[..n]
  }
}

=== FILE: text_paste_controller.dfy ===
/**
 * The paste HTTP handlers (controllers/textPasteController.js), reduced to
 * the status and error body each one sends for a service outcome. The
 * handlers classify errors by their message text only.
 */
module TextPasteController {
  import opened Wrappers
  import opened Text
  import opened PasteModel
  import opened PasteService

  /** A response: its status and, for errors, the `error` field of the body. */
  datatype Reply = Reply(status: nat, error: Option<string>)

  /** `POST /`: 201, or 409 for exactly the slug-collision message, 400 for any other error. */
  function CreateReply(r: Result<Paste, string>): (reply: Reply)
    ensures r.Ok? <==> reply.status == 201
    ensures r.Err? ==> reply.error == Some(r.error)
    ensures reply.status == 409 <==> r == Err("Slug already in use.")
    ensures r.Err? && r.error != "Slug already in use." ==> reply.status == 400
  {
    match r
    case Ok(_) => Reply(201, None)
    case Err(msg) => Reply(if msg == "Slug already in use." then 409 else 400, Some(msg))
  }

  /**
   * `GET /:id` (the disabled summary handler uses the same statuses, but
   * its 500 says "Failed summarizing"): not found is 404; a message starting with `AccessDenied` or
   * `WrongPassword` is 403; anything else is 500 with the message itself.
   */
  function ReadErrorReply(msg: string): (reply: Reply)
    ensures msg == "NotFound" ==> reply == Reply(404, Some("Paste not found"))
    ensures msg != "NotFound" && StartsWith(msg, "AccessDenied") ==> reply == Reply(403, Some("Access denied"))
    ensures msg != "NotFound" && !StartsWith(msg, "AccessDenied") && StartsWith(msg, "WrongPassword")
            ==> reply == Reply(403, Some("Password incorrect"))
    ensures reply.status == 500 <==>
      msg != "NotFound" && !StartsWith(msg, "AccessDenied") && !StartsWith(msg, "WrongPassword")
    ensures reply.status == 500 ==> reply.error == Some(msg)
  {
    if msg == "NotFound" then Reply(404, Some("Paste not found"))
    else if StartsWith(msg, "AccessDenied") then Reply(403, Some("Access denied"))
    else if StartsWith(msg, "WrongPassword") then Reply(403, Some("Password incorrect"))
    else Reply(500, Some(msg))
  }

  /** `PUT /:id`: only the exact messages `NotFound` and `AccessDenied` are recognised. */
  function UpdateErrorReply(msg: string): (reply: Reply)
    ensures msg == "NotFound" <==> reply == Reply(404, Some("Paste not found"))
    ensures msg == "AccessDenied" <==> reply == Reply(403, Some("Not owner"))
    ensures reply.status == 500 <==> msg != "NotFound" && msg != "AccessDenied"
    ensures reply.status == 500 ==> reply.error == Some(msg)
  {
    if msg == "NotFound" then Reply(404, Some("Paste not found"))
    else if msg == "AccessDenied" then Reply(403, Some("Not owner"))
    else Reply(500, Some(msg))
  }

  /** `GET /:id/export`: only `NotFound` is recognised; every other failure is 500. */
  function ExportErrorReply(msg: string): (reply: Reply)
    ensures msg == "NotFound" <==> reply.status == 404
    ensures msg != "NotFound" <==> reply == Reply(500, Some(msg))
  {
    if msg == "NotFound" then Reply(404, Some("Paste not found")) else Reply(500, Some(msg))
  }

  /** The `Content-Type` an export is sent with. */
  function ContentType(e: Export): (ct: string)
    ensures e.Raw? <==> ct == "text/markdown"
    ensures e.Png? <==> ct == "image/png"
    ensures e.Pdf? <==> ct == "application/pdf"
  {
    match e
    case Raw(_, _) => "text/markdown"
    case Png(_, _) => "image/png"
    case Pdf(_, _) => "application/pdf"
  }

  /** The service's create errors reach the client as 409 for a taken slug and 400 otherwise. */
  lemma CreateErrorsClassified(e: PasteError)
    ensures CreateReply(Err(e.Message())).status == (if e == SlugInUse then 409 else 400)
  {
  }

  /**
   * Every failure of the read path gets its intended status: a missing or
   * expired paste 404, a refused viewer or wrong password 403, and a paste
   * that is protected without a hash 500.
   */
  lemma ReadErrorsClassified(s: Store, id: string, user: Option<Common.UserId>, password: Option<string>, now: int)
    requires GetPasteById(s, id, user, password, now).result.Err?
    ensures var e := GetPasteById(s, id, user, password, now).result.error;
      ReadErrorReply(e.Message()).status ==
        (match e
         case NotFound => 404
         case AccessDenied => 403
         case WrongPassword => 403
         case _ => 500)
  {
    var e := GetPasteById(s, id, user, password, now).result.error;
    assert e == NotFound || e == AccessDenied || e == WrongPassword || e == HashMissing;
    assert StartsWith(AccessDenied.Message(), "AccessDenied");
    assert StartsWith(WrongPassword.Message(), "WrongPassword");
    var m := HashMissing.Message();
    assert m[..12][0] == m[..13][0] == 'd';
  }

  /** Update failures: missing 404, not the owner 403, a failed save 500. */
  lemma UpdateErrorsClassified(e: PasteError)
    ensures UpdateErrorReply(e.Message()).status ==
      (match e
       case NotFound => 404
       case NotOwner => 403
       case _ => 500)
  {
  }

  /** An unknown export format is reported as a server error, not a bad request. */
  lemma InvalidFormatIsServerError(s: Store, id: string, format: string)
    requires ExportPaste(s, id, format) == Err(InvalidFormat)
    ensures ExportErrorReply(ExportPaste(s, id, format).error.Message()) == Reply(500, Some("InvalidFormat"))
  {
  }
}

=== FILE: user_model.dfy ===
/** The user record (models/User.js): account status, sign-in method and storage quota. */
module UserModel {
  import opened Wrappers
  import opened Common

  datatype Status = Active | Banned | Deleted

  function StatusName(s: Status): string {
    match s
    case Active => "active"
    case Banned => "banned"
    case Deleted => "deleted"
  }

  /** The external sign-in providers; a user without one signs in with a password. */
  datatype AuthMethod = Google | Github | Microsoft | Apple

  function AuthMethodName(m: AuthMethod): string {
    match m
    case Google => "google"
    case Github => "github"
    case Microsoft => "microsoft"
    case Apple => "apple"
  }

  /** The schema's enum validator for `authMethod`. */
  function ParseAuthMethod(s: string): (r: Option<AuthMethod>)
    ensures r.Some? ==> AuthMethodName(r.value) == s
    ensures r.None? ==> forall m :: AuthMethodName(m) != s
  {
    if s == "google" then Some(Google)
    else if s == "github" then Some(Github)
    else if s == "microsoft" then Some(Microsoft)
    else if s == "apple" then Some(Apple)
    else None
  }

  /** 1 GiB, the default quota. */
  const DefaultMaxStorage: nat := 1024 * 1024 * 1024

  /** One stored user. `fullname` is declared required but no code path sets it. */
  datatype User = User(
    id: string,
    username: string,
    fullname: Option<string>,
    hashedPassword: Option<Digest>,
    avatarUrl: Option<string>,
    storageUsed: nat,
    maxStorage: nat,
    status: Status,
    authMethod: Option<AuthMethod>,
    createdAt: int)

  /** A freshly created user: the schema defaults fill everything the caller does not give. */
  function NewUser(id: string, username: string, hashed: Option<Digest>, signIn: Option<AuthMethod>, now: int)
    : (u: User)
    ensures u.id == id && u.username == username && u.hashedPassword == hashed && u.authMethod == signIn
    ensures u.status == Active && u.storageUsed == 0 && u.maxStorage == 1073741824
    ensures u.avatarUrl.None? && u.fullname.None?
  {
    User(id, username, None, hashed, None, 0, DefaultMaxStorage, Active, signIn, now)
  }

  /** The users table, by id. */
  type Users = map<string, User>

  predicate WellKeyed(t: Users) {
    forall id :: id in t ==> t[id].id == id
  }

  /** No two users share a username, compared exactly as `findOne({ username })` compares. */
  predicate UniqueUsernames(t: Users) {
    forall a, b :: a in t && b in t && t[a].username == t[b].username ==> a == b
  }

  function UsernamesOf(t: Users): set<string> {
    set id | id in t :: t[id].username
  }

  /** `User.findOne({ username })` */
  function FindByUsername(t: Users, username: string): (r: Option<string>)
    requires UniqueUsernames(t)
    ensures r.Some? ==> r.value in t && t[r.value].username == username
    ensures r.None? ==> username !in UsernamesOf(t)
  {
    if username in UsernamesOf(t) then
      var id :| id in t && t[id].username == username;
      Some(id)
    else None
  }

  /** Adding a user whose name no user holds keeps names unique. */
  lemma AddNewNameKeepsUnique(t: Users, id: string, u: User)
    requires UniqueUsernames(t) && u.username !in UsernamesOf(t)
    ensures UniqueUsernames(t[id := u])
  {
    assert forall x :: x in t ==> t[x].username in UsernamesOf(t);
  }
}

=== FILE: user_service.dfy ===
/**
 * The local account service (service/userService.js): registration,
 * password sign-in, profile updates, soft deletion and the public projection.
 */
module UserService {
  import opened Wrappers
  import opened Text
  import opened Common
  import opened UserModel

  /** The errors the service raises, each with its exact message. */
  datatype UserError =
    | UsernameTaken
    | ValidationFailed
    | NotAvailable
    | UseProvider(signIn: AuthMethod)
    | HashArguments
    | WrongPassword
    | UsernameInUse
    | NotExist
  {
    function Message(): string {
      match this
      case UsernameTaken => "Username đã tồn tại"
      // raised by the schema validator, not by the service
      case ValidationFailed => "User validation failed"
      case NotAvailable => "Tài khoản không tồn tại hoặc bị khóa"
      case UseProvider(m) => "Vui lòng đăng nhập bằng " + AuthMethodName(m)
      // raised by bcrypt when the password or the stored hash is missing
      case HashArguments => "data and hash arguments required"
      case WrongPassword => "Mật khẩu sai"
      case UsernameInUse => "Username đã được sử dụng"
      case NotExist => "User không tồn tại"
    }
  }

  /** `_sanitize(user)`: the stored record without its password hash. */
  datatype UserView = UserView(
    id: string,
    username: string,
    fullname: Option<string>,
    avatarUrl: Option<string>,
    storageUsed: nat,
    maxStorage: nat,
    status: Status,
    authMethod: Option<AuthMethod>,
    createdAt: int)

  function Sanitize(u: User): (v: UserView)
    ensures v.id == u.id && v.username == u.username && v.status == u.status && v.authMethod == u.authMethod
  {
    UserView(u.id, u.username, u.fullname, u.avatarUrl, u.storageUsed, u.maxStorage, u.status, u.authMethod, u.createdAt)
  }

  /** The projection does not depend on the hash, so no hash can leak through it. */
  lemma SanitizeDropsHash(u: User, h: Option<Digest>)
    ensures Sanitize(u.(hashedPassword := h)) == Sanitize(u)
  {
  }

  // ---------------------------------------------------------------- register

  /**
   * `register({ username, password, authMethod })`: an exactly equal
   * username is refused; a hash is stored only for a password account (no
   * provider) that gives a non-empty password.
   */
  function Register(t: Users, username: string, password: Option<string>, signIn: Option<string>,
                    newId: string, now: int)
    : (s: Step<Users, UserView, UserError>)
    requires newId !in t
    ensures s.result.Err? ==> s.state == t
    ensures username in UsernamesOf(t) ==> s.result == Err(UsernameTaken)
    ensures s.result.Ok? <==>
      && username !in UsernamesOf(t) && username != ""
      && (signIn.None? || ParseAuthMethod(signIn.value).Some?)
    ensures s.result.Ok? ==>
      && newId in s.state && s.state == t[newId := s.state[newId]]
      && var u := s.state[newId];
      && u.username == username && u.status == Active
      && u.storageUsed == 0 && u.maxStorage == DefaultMaxStorage
      && (u.hashedPassword.Some? <==> signIn.None? && Supplied(password))
      && (u.hashedPassword.Some? ==> Matches(password.value, u.hashedPassword.value))
      && (signIn.Some? ==> u.authMethod.Some? && AuthMethodName(u.authMethod.value) == signIn.value)
      && s.result.value == Sanitize(u)
    ensures UniqueUsernames(t) ==> UniqueUsernames(s.state)
  {
    if username in UsernamesOf(t) then Step(t, Err(UsernameTaken))
    else
      var hashed := if !Supplied(signIn) && Supplied(password) then Some(Hash(password.value)) else None;
      var parsed := if signIn.Some? then ParseAuthMethod(signIn.value) else None;
      if (signIn.Some? && parsed.None?) || username == "" then Step(t, Err(ValidationFailed))
      else
        var u := NewUser(newId, username, hashed, parsed, now);
        if UniqueUsernames(t) then
          AddNewNameKeepsUnique(t, newId, u);
          Step(t[newId := u], Ok(Sanitize(u)))
        else Step(t[newId := u], Ok(Sanitize(u)))
  }

  // ---------------------------------------------------------------- login

  /** Who can sign in with a password: an active password account whose hash the password matches. */
  ghost predicate MayLogin(u: User, password: Option<string>) {
    && u.status == Active
    && u.authMethod.None?
    && u.hashedPassword.Some? && password.Some?
    && Matches(password.value, u.hashedPassword.value)
  }

  /**
   * `login(username, password)`: a missing or inactive account first, then an
   * account bound to a provider, then the hash comparison.
   */
  function Login(t: Users, username: string, password: Option<string>): (r: Result<UserView, UserError>)
    requires UniqueUsernames(t)
    ensures username !in UsernamesOf(t) ==> r == Err(NotAvailable)
    ensures FindByUsername(t, username).Some? ==>
      var u := t[FindByUsername(t, username).value];
      && (u.status != Active ==> r == Err(NotAvailable))
      && (u.status == Active && u.authMethod.Some? ==> r == Err(UseProvider(u.authMethod.value)))
      && (r.Ok? <==> MayLogin(u, password))
      && (r.Ok? ==> r.value == Sanitize(u))
  {
    match FindByUsername(t, username)
    case None => Err(NotAvailable)
    case Some(id) =>
      var u := t[id];
      if u.status != Active then Err(NotAvailable)
      else if u.authMethod.Some? then Err(UseProvider(u.authMethod.value))
      else if u.hashedPassword.None? || password.None? then Err(HashArguments)
      else if !Matches(password.value, u.hashedPassword.value) then Err(WrongPassword)
      else Ok(Sanitize(u))
  }

  /** A password account signs in with the password it registered with, and with no other. */
  lemma RegisterThenLogin(t: Users, username: string, p: string, q: string, newId: string, now: int)
    requires newId !in t && UniqueUsernames(t)
    requires Register(t, username, Some(p), None, newId, now).result.Ok?
    requires p != "" && q != p
    ensures var t' := Register(t, username, Some(p), None, newId, now).state;
      && UniqueUsernames(t')
      && Login(t', username, Some(p)).Ok?
      && Login(t', username, Some(q)) == Err(WrongPassword)
  {
    var t' := Register(t, username, Some(p), None, newId, now).state;
    assert t'[newId].username == username;
    assert FindByUsername(t', username) == Some(newId);
  }

  // ---------------------------------------------------------------- profile

  /** The whitelisted fields of a profile update; `None` is a key the request did not send. */
  datatype ProfileUpdate = ProfileUpdate(
    username: Option<string>,
    password: Option<string>,
    avatarUrl: Option<string>)

  /** `new RegExp(^name$, "i")` against another user's name, read as ASCII case-insensitive equality. */
  predicate NameClash(t: Users, id: string, username: string) {
    exists other :: other in t && other != id && Lower(t[other].username) == Lower(username)
  }

  /**
   * `updateProfile(userId, updates)`: a non-empty new username must not equal
   * another user's ignoring case (checked before the user is looked up); a
   * non-empty password becomes a new hash; only username, hash and avatar change.
   */
  function UpdateProfile(t: Users, id: string, u: ProfileUpdate): (s: Step<Users, UserView, UserError>)
    ensures s.result.Err? ==> s.state == t
    ensures Supplied(u.username) && NameClash(t, id, u.username.value) ==> s.result == Err(UsernameInUse)
    ensures !(Supplied(u.username) && NameClash(t, id, u.username.value)) && id !in t ==> s.result == Err(NotExist)
    ensures s.result.Ok? <==>
      && !(Supplied(u.username) && NameClash(t, id, u.username.value))
      && id in t
      && u.username.GetOr(t[id].username) != ""
    ensures s.result.Ok? ==>
      && id in t && id in s.state && s.state == t[id := s.state[id]]
      && var old_, new_ := t[id], s.state[id];
      && new_.(username := old_.username, hashedPassword := old_.hashedPassword, avatarUrl := old_.avatarUrl) == old_
      && new_.username == u.username.GetOr(old_.username)
      && (Supplied(u.password) ==> new_.hashedPassword == Some(Hash(u.password.value)))
      && (!Supplied(u.password) ==> new_.hashedPassword == old_.hashedPassword)
      && (u.avatarUrl.Some? ==> new_.avatarUrl == u.avatarUrl)
      && (Supplied(u.username) ==> forall other :: other in t && other != id ==>
            Lower(t[other].username) != Lower(new_.username))
      && s.result.value == Sanitize(new_)
    ensures UniqueUsernames(t) ==> UniqueUsernames(s.state)
  {
    if Supplied(u.username) && NameClash(t, id, u.username.value) then Step(t, Err(UsernameInUse))
    else if id !in t then Step(t, Err(NotExist))
    else
      var old_ := t[id];
      var new_ := old_.(username := u.username.GetOr(old_.username),
                        hashedPassword := if Supplied(u.password) then Some(Hash(u.password.value)) else old_.hashedPassword,
                        avatarUrl := if u.avatarUrl.Some? then u.avatarUrl else old_.avatarUrl);
      if new_.username == "" then Step(t, Err(ValidationFailed))
      else
        assert UniqueUsernames(t) ==> UniqueUsernames(t[id := new_]) by {
          if UniqueUsernames(t) && !Supplied(u.username) {
            assert new_.username == old_.username;
          }
        }
        Step(t[id := new_], Ok(Sanitize(new_)))
  }

  /** Registration compares names exactly, so a name differing only in case is accepted there. */
  lemma RegisterIgnoresCaseVariants(t: Users, newId: string, now: int)
    requires newId !in t && "alice" !in UsernamesOf(t)
    ensures Register(t, "alice", Some("pw"), None, newId, now).result.Ok?
  {
  }

  // ---------------------------------------------------------------- delete

  /** `softDelete(userId)`: the record stays, with status `deleted`. */
  function SoftDelete(t: Users, id: string): (s: Step<Users, UserView, UserError>)
    ensures id !in t ==> s == Step(t, Err(NotExist))
    ensures id in t ==>
      && s.state == t[id := t[id].(status := Deleted)]
      && s.result == Ok(Sanitize(t[id].(status := Deleted)))
    ensures UniqueUsernames(t) ==> UniqueUsernames(s.state)
  {
    if id !in t then Step(t, Err(NotExist))
    else
      var u := t[id].(status := Deleted);
      Step(t[id := u], Ok(Sanitize(u)))
  }

  /** After a soft delete the account cannot sign in with any password. */
  lemma SoftDeleteBlocksLogin(t: Users, id: string, password: Option<string>)
    requires UniqueUsernames(t) && id in t
    ensures var t' := SoftDelete(t, id).state;
      UniqueUsernames(t') && Login(t', t[id].username, password) == Err(NotAvailable)
  {
    var t' := SoftDelete(t, id).state;
    assert t'[id].username == t[id].username;
    assert FindByUsername(t', t[id].username) == Some(id);
  }
}

=== FILE: wrappers.dfy ===
/** Failure-carrying datatypes shared by every service of the model. */
module Wrappers {

  /** A value that may be absent: JavaScript's `null` / `undefined`. */
  datatype Option<+T> = None | Some(value: T) {
    function GetOr(default: T): T {
      match this
      case Some(v) => v
      case None => default
    }
  }

  /** The outcome of an operation that either returns a value or throws an error. */
  datatype Result<+T, +E> = Ok(value: T) | Err(error: E) {
    predicate IsFailure() {
      Err?
    }

    function PropagateFailure<U>(): Result<U, E>
      requires Err?
    {
      Err(error)
    }

    function Extract(): T
      requires Ok?
    {
      value
    }
  }

  /** The outcome of a check that either passes silently or throws an error. */
  datatype Check<+E> = Pass | Fail(error: E)

  /**
   * An operation on a table that may change the table even when it throws:
   * the new table and what the caller receives.
   */
  datatype Step<+S, +T, +E> = Step(state: S, result: Result<T, E>)
}
